=== FILE: README.md ===
# Personal site scripts: a Dafny model

This project models the logic of `js/main-script.js`, the script behind a
static personal site with a blog and a project showcase. The script has
three parts that this model covers:

- **`parseMarkdown`** turns a Markdown-like text into HTML. It is a fixed
  chain of twelve regular-expression substitutions (lines 75-89). The model
  has one total function per substitution, on `string` (`seq<char>`):
  - `Heading2`, `Heading3`
  - `Bold`, `Italic`, `InlineCode`, `FencedCode`
  - `Blockquotes`, `ListItems`, `WrapList`
  - `ParagraphBreaks`, `WrapParagraphs`, `RemoveEmptyParagraphs`

  `ParseMarkdown` is their composition in source order. The steps are built
  from four generic pieces:
  - a line-anchored rule: split into lines, map each line, join (`Markdown.MapLines`);
  - a lazy delimited rule `/D(.*?)D/g` (`Inline.ReplaceDelimited`);
  - a literal global replace (`Text.ReplaceAll`);
  - the single first-`<li>`-to-last-`</li>` wrap.
- **The loaders** `loadArticleContent` and `loadProjectContent` (lines
  92-112). They work on an abstract fetch outcome: `Ok(text)`, `NotOk` or
  `Failed`.
- **The page helpers**:
  - the post and project card templates (lines 115-139) and the tech-tag list;
  - lookup by id (lines 185 and 219);
  - the home page's `slice(0, 2)` (lines 146 and 156);
  - the `map(...).join("")` listings;
  - the project-header link list (lines 236-244).

Regular-expression semantics are modelled as JavaScript defines them:
- Matches are leftmost and non-overlapping.
- `.*?` stops at the first closing delimiter.
- `.` stops at any of the four line terminators (`\n`, `\r`, U+2028, U+2029).
- With the `m` flag, `^`/`$` work per line, and an empty last line is a line.

The model is total: it has no precondition on the input text. A `\r` or
U+2028 is simply a line break, as it is for the regular expressions.

Reading `js/main-script.js` closely shows four behaviours a reader may not
expect. The model reproduces each one as written:
- Line 85 has the `s` flag and no `g` flag. It wraps one span, from the
  first `<li>` to the last `</li>`, in a single `<ul>`. So `- a\n- b`
  becomes `<ul><li>a</li>\n<p><li>b</li></ul></p>`, because the second line
  starts with `<l`, which line 87 does not exempt.
- The class `[h|u|p|b]` on line 87 contains `b` and `p`. So lines starting
  `<blockquote>` or `<pre>` are **not** wrapped in a paragraph: `> q`
  becomes `<blockquote>q</blockquote>`. A line that starts with
  `<blockquote>` is not wrapped. A quote can still end up inside a
  paragraph when a blank line joins it to the text before it: `a\n\n> q`
  becomes `<p>a</p><p><blockquote>q</blockquote></p>`.
- Line 81 runs before line 82 and consumes every pair of backticks on a
  line. Line 82 therefore never replaces anything.
- Line 88 is a single pass, so `<p><p></p></p>` becomes `<p></p>`.

## Model

| member | source | states |
|---|---|---|
| Markdown.ParseMarkdown | js/main-script.js:75-89 | The twelve replacements in source order. It has no contract of its own: its behaviour on whole documents is stated by the ParseFacts rows below (Heading3Line, BlockquoteLine, TwoItems, PlainLine, TwoParagraphs and the rest), and each step by the row of its step function below |
| Markdown.MapLines | js/main-script.js:77-78 | The `gm` line-anchored rule (also used at lines 83, 84 and 87): the rule applied to each line, terminators copied. No contract of its own; Lines.JoinLines, Markdown.LineRulePerLine and Markdown.MapLinesIsSplitMapJoin state what it does |
| Markdown.Heading2 | js/main-script.js:77 | `# X` on a line becomes `<h2>X</h2>`. No contract of its own; Markdown.LineRulePerLine states it line by line and ParseFacts.Heading2Line on a whole heading |
| Markdown.Heading3 | js/main-script.js:78 | `## X` on a line becomes `<h3>X</h3>`. No contract of its own; Markdown.LineRulePerLine and ParseFacts.Heading3Line state what it does |
| Inline.ReplaceDelimited | js/main-script.js:79-82 | The `/D(.*?)D/g` scan: leftmost opening, shortest run, resume after the close. No contract of its own; Inline.CloseFrom, Inline.DelimitedFirstClose, Inline.DelimitedSkipsPlain, Inline.DelimitedLineLocal and Inline.DelimitedAbsent state what it does |
| Markdown.Bold | js/main-script.js:79 | The scan with `**` and `<strong>`. No contract of its own; ParseFacts.TwoStrongRuns, ParseFacts.StrongAroundStar and the Inline rows state what it does |
| Markdown.Italic | js/main-script.js:80 | The scan with `*` and `<em>`. No contract of its own; ParseFacts.StrongBeforeEm and the Inline rows state what it does |
| Markdown.InlineCode | js/main-script.js:81 | The scan with a backtick and `<code>`. No contract of its own; Markdown.CodeLeavesOneTickPerLine and the Inline rows state what it does |
| Markdown.FencedCode | js/main-script.js:82 | The scan with three backticks, across lines, and `<pre><code>`. No contract of its own; Markdown.FencedNeverFires states that after line 81 it changes nothing |
| Markdown.Blockquotes | js/main-script.js:83 | `> X` on a line becomes `<blockquote>X</blockquote>`. No contract of its own; Markdown.LineRulePerLine and ParseFacts.BlockquoteLine state what it does |
| Markdown.ListItems | js/main-script.js:84 | `- X` on a line becomes `<li>X</li>`. No contract of its own; Markdown.LineRulePerLine and ParseFacts.TwoItems state what it does |
| Lines.JoinLines | js/main-script.js:77 | Splitting a text at its line terminators and joining the lines back with the same terminators gives the text back, so a line-anchored rule sees every character |
| Markdown.MapLinesIsSplitMapJoin | js/main-script.js:77-78 | Applying a line rule is the same as splitting at the terminators, applying the rule to each line, and joining with the original terminators |
| Markdown.LineRulePerLine | js/main-script.js:77-78 | A line-anchored rule keeps the terminators, and its k-th output line is the rule applied to the k-th input line |
| ParseFacts.Heading2Line | js/main-script.js:77 | The whole converter turns `# X` into exactly `<h2>X</h2>`, with no paragraph around it (X one line, without `*`, backtick or `<`) |
| ParseFacts.Heading3Line | js/main-script.js:78 | The rule of line 77 leaves `## X` alone, and the converter turns it into exactly `<h3>X</h3>` (X one line, without `*`, backtick or `<`) |
| Inline.CloseFrom | js/main-script.js:79-82 | The closing delimiter found for a lazy run is the first occurrence after the opening one, and the run up to it stays on one line unless the rule crosses lines |
| Inline.DelimitedFirstClose | js/main-script.js:79-81 | Laziness: after an opening delimiter, the first following delimiter closes the run, and the scan resumes right after it (no occurrence of the delimiter starts inside the run, and for `.` the run is one line) |
| Inline.DelimitedAbsent | js/main-script.js:79-82 | Text without the delimiter's first character is left unchanged |
| Inline.DelimitedSkipsPlain | js/main-script.js:79-82 | Text without the delimiter's first character is copied through, and the scan continues after it |
| Inline.DelimitedLineLocal | js/main-script.js:79-81 | A bold, italic or code run never spans a line break: the rule applied to `a + break + b` is the rule on `a`, the break, then the rule on `b` |
| ParseFacts.TwoStrongRuns | js/main-script.js:79 | `**x**y**z**` gives two separate `<strong>` elements with y between them (x and z each one line without `*`, y without `*`) |
| ParseFacts.StrongAroundStar | js/main-script.js:79 | A single star inside a bold run does not end it: `**a*b**` becomes `<strong>a*b</strong>` (a and b one line without `*`, b non-empty) |
| ParseFacts.StrongBeforeEm | js/main-script.js:79-80 | Bold runs first, so no star of a matched `**x**` is left for the italic rule: the result has one `<strong>` and no `<em>` (x one line without `*`) |
| Markdown.CodeLeavesOneTickPerLine | js/main-script.js:81 | After the inline-code rule, no line has two backticks |
| Markdown.FencedNeverFires | js/main-script.js:81-82 | Once line 81 has run, the fenced-block rule of line 82 changes nothing, whatever the input |
| ParseFacts.BlockquoteLine | js/main-script.js:83 | `> X` becomes `<blockquote>X</blockquote>` and, because `b` is in the exempt class, is not wrapped in a paragraph (X one line, without `*`, backtick or `<`) |
| Markdown.WrapList | js/main-script.js:85 | The text changes if and only if some `<li>` is followed by a `</li>`. It then gains exactly 9 characters: one `<ul>` before the leftmost `<li>` and one `</ul>` after the last `</li>` |
| ParseFacts.WrapListWholeSpan | js/main-script.js:85 | Text that starts with `<li>` and ends with `</li>` is wrapped whole in one `<ul>` |
| ParseFacts.TwoItems | js/main-script.js:84-87 | `- x\n- y` becomes one list whose second line is wrapped in a paragraph: `<ul><li>x</li>\n<p><li>y</li></ul></p>` (x and y each one line, without `*`, backtick or `<`) |
| Markdown.ParagraphBreaks | js/main-script.js:86 | After the replacement no two line feeds are adjacent |
| ParseFacts.BlankLineBreaks | js/main-script.js:86 | A blank line between two lines becomes `</p><p>` |
| Text.ReplaceBetween | js/main-script.js:86 | One occurrence of the pattern between two stretches in which no occurrence can start, whatever follows them (for example single lines, for `\n\n`), is the only one replaced |
| Text.ReplaceAllLength | js/main-script.js:86 | A global literal replacement changes the length by the number of non-overlapping matches times the difference in length between replacement and pattern |
| Markdown.WrapParagraphsExempt | js/main-script.js:87 | Line terminators are kept, and every line of the result starts with a tag the rule exempts: its own, or the `<p>` it was given. Its per-line behaviour is stated by Markdown.LineRulePerLine |
| Markdown.WrapParagraphs | js/main-script.js:87 | No contract of its own: it applies the line rule to every line; Markdown.WrapParagraphsExempt and Markdown.LineRulePerLine state what it does, and Markdown.WrapParagraphsIdempotent that a second application changes nothing |
| Markdown.WrapParagraphsIdempotent | js/main-script.js:87 | Applying the rule a second time changes nothing |
| ParseFacts.PlainLine | js/main-script.js:87 | A non-empty unmarked line without `*`, backtick or `<` becomes exactly `<p>line</p>` |
| ParseFacts.TwoParagraphs | js/main-script.js:86-88 | `x\n\ny` becomes exactly `<p>x</p><p>y</p>` (x and y each one non-empty line, without `*`, backtick or `<`, and opened by none of `# `, `## `, `> `, `- `) |
| Markdown.RemoveEmptyParagraphs | js/main-script.js:88 | The text is unchanged if and only if it has no `<p></p>`; otherwise it shrinks by 7 characters per removed occurrence |
| Text.ReplaceAllUnchangedIff | js/main-script.js:88 | A replacement of a different length leaves the text unchanged exactly when the pattern does not occur |
| ParseFacts.EmptyParagraphSinglePass | js/main-script.js:88 | One pass turns `<p><p></p></p>` into `<p></p>`; only a second pass would remove that |
| ParseFacts.NestedPairLeavesPair | js/main-script.js:88 | For a three-character opening tag and a closing tag that differ in their second character, as `<p>` and `</p>` do, removing the pair from the pair nested in itself leaves exactly one pair, because the scan does not look back |
| ParseFacts.EmptyInput | js/main-script.js:87-88 | The empty text gets `<p></p>` from line 87, which line 88 removes, so the converter returns the empty text |
| Loader.LoadArticleContent | js/main-script.js:92-101 | A successful response gives the conversion of its body; a refused response and a thrown error both give the fixed article fallback paragraph |
| Loader.LoadProjectContent | js/main-script.js:103-112 | The same for projects, with the project fallback paragraph |
| Loader.ArticleContentIsConverted | js/main-script.js:92-101 | Every loader result is the converter's output for some text: the fallback is exactly the conversion of its message |
| Loader.ProjectContentIsConverted | js/main-script.js:103-112 | The same for the project loader |
| Loader.LoadersAgreeOnSuccess | js/main-script.js:92-112 | The page cannot tell a refused request from a failed one; both loaders agree on a successful response and differ on failure |
| Catalog.FindArticle | js/main-script.js:185 | Nothing is found if and only if no article has the id; otherwise the result has the id and is the first article with it |
| Catalog.FindProject | js/main-script.js:219 | The same lookup for projects |
| Catalog.FindArticleOwnId | js/main-script.js:185 | With distinct ids, looking up any article's id finds that article |
| Catalog.FindProjectOwnId | js/main-script.js:219 | With distinct ids, looking up any project's id finds that project |
| Catalog.TakeFirst | js/main-script.js:146 | `slice(0, n)` keeps the first n entries in order, or all entries when there are fewer |
| Catalog.TakeFirstSplits | js/main-script.js:146 | The kept prefix followed by the remaining entries is the whole list |
| Catalog.HomeArticles | js/main-script.js:146 | The home page lists at most two articles: exactly two when there are two or more, otherwise all of them |
| Catalog.HomeProjects | js/main-script.js:156 | The same for projects |
| Cards.RenderPostCard | js/main-script.js:115-124 | The card opens with the `<article>` tag and its click handler for the article's address, and ends with `</article>`. Its links, excerpt toggle and click target are stated by the Cards.PostCard rows below |
| Cards.PostCardLinks | js/main-script.js:117-121 | The article's address `article.html?id=<id>` is the onclick target and the target of both links of the post card |
| Cards.PostCardExcerptToggle | js/main-script.js:120 | The card with the excerpt is the card without it, with `<p>excerpt</p>` inserted at one place |
| Cards.PostCardHidesExcerpt | js/main-script.js:120 | Without the flag, the card does not depend on the excerpt |
| Cards.PostCardNavigates | js/main-script.js:117 | For a slug id, the address a click on the card leads to is the article's address |
| Cards.IdFromPageUrl | js/main-script.js:182-183 | For a slug id (letters, digits, `-`, `_`), reading the `id` query value of `page?id=<id>` gives the id back |
| Cards.PostCardOpensArticle | js/main-script.js:182-185 | With distinct slug ids, following a post card's click target and looking its id up finds the article the card was made from |
| Cards.RenderProjectCard | js/main-script.js:126-139 | The card opens with the project `<div>` and its click handler for the project's address, and ends with `</div>`. Its links, tags, description toggle and click target are stated by the Cards.ProjectCard rows below |
| Cards.TechTagsAppend | js/main-script.js:127-129 | The tags of a concatenation of tech lists are the concatenated tags: one `<span class="tech-tag">` per entry, in order, with nothing between them |
| Cards.TechTagsRoundTrip | js/main-script.js:127-129 | When no entry contains `<`, reading the tag run back gives the tech list it was made from |
| Cards.ProjectCardLinks | js/main-script.js:132-136 | The project's address is the onclick target and the target of the "Learn more" link |
| Cards.ProjectCardTags | js/main-script.js:127-135 | The tag of every tech entry appears on the project card |
| Cards.ProjectCardDescriptionToggle | js/main-script.js:134 | The card with the description is the card without it, with `<p>description</p>` inserted at one place |
| Cards.ProjectCardHidesDescription | js/main-script.js:134 | Without the flag, the card does not depend on the description |
| Cards.ProjectCardNavigates | js/main-script.js:132 | For a slug id, a click on the card leads to the project's address |
| Cards.ProjectCardOpensProject | js/main-script.js:216-219 | With distinct slug ids, following a project card's click target and looking its id up finds that project |
| Cards.PostListAppend | js/main-script.js:147-149 | The listing of a concatenation is the concatenation of the listings |
| Cards.ProjectListAppend | js/main-script.js:157-159 | The same for project listings |
| Cards.HomePostsStartBlog | js/main-script.js:146-168 | The home page's recent posts are exactly the first cards of the blog page |
| Cards.HomeProjectsStartProjects | js/main-script.js:156-177 | The home page's featured projects are exactly the first cards of the projects page |
| Cards.ProjectLinks | js/main-script.js:236-244 | One link per truthy address, GitHub first and then the live demo, each as an anchor opening in a new tab |
| Cards.EmptyLinkIsMissing | js/main-script.js:237-241 | An empty address is dropped exactly as a missing one is, as JavaScript truthiness makes it |
| Cards.LinksMarkup | js/main-script.js:236-251 | The joined links are both anchors in order, one anchor, or the empty text |

## Left out

- The DOM wiring (lines 142-288) is not modelled: element lookups, `innerHTML` writes, `document.title`, the page dispatch on `DOMContentLoaded`, and the article and project header templates (lines 197-202 and 246-252). Only the pure helpers it calls are modelled, together with the `map(...).join("")` listings it builds.
- The "not found" messages of the article and project pages (lines 186-190 and 220-224) are left out. They are fixed DOM writes taken when the lookup returns nothing; that case is the `None` of `FindArticle` and `FindProject`.
- `fetch` and `response.text()` are network I/O. A loader sees only the outcome. The error message the loader throws on a refused response is discarded by its own `catch`, so it is not modelled.
- `formatDate` (lines 69-72) is left out. It depends on `Date` parsing and locale formatting.
- The scroll, smooth-scroll, hover and header-opacity listeners (lines 265-276 and 290-329), and all of `js/script.js`, are event-driven UI code and are left out.
- The catalog contents (lines 4-66) are data, not logic. The model is stated for any list of records.
- Cards.IdFromPageUrl: `URLSearchParams` is not modelled: neither its percent-decoding and `+`-to-space decoding, nor the end of the value at `&`, nor the dropping of the `#` fragment. The round trip is stated only for slug ids (letters, digits, `-`, `_`), which none of these change; for other ids, such as `a&b`, `a+b` or `a%41`, the browser reads back a different value and the model promises nothing.
- JavaScript strings are sequences of UTF-16 code units; the model uses Unicode scalar values. This only matters for characters outside the Basic Multilingual Plane, which no rule matches.
- ParseFacts.Heading2Line: besides having no `*` and no backtick, the heading text must also have no `<`. Otherwise it could hold a `<li>…</li>` or `<p></p>` that lines 85 and 88 would rewrite.
- Inline.DelimitedFirstClose: the run must not contain the start of a delimiter occurrence, and for `.` it must be one line. In `**a***` with run `a*`, a closing `**` starts inside the run, so the result is `<strong>a</strong>*`. `**a\nb**` is left unchanged, because `.` stops at the line end.
- ParseFacts.TwoStrongRuns: x and z must each be one line without `*`, and y must have no `*`. With y = `**` the text `**x******z**` gives `<strong>x</strong><strong></strong>z**`.
- ParseFacts.StrongBeforeEm: x must be one line without `*`. `**a*b*c**` gets an `<em>` inside the `<strong>`. Line 79 leaves `**a\nb**` unchanged, and line 80 then turns it into `<em></em>a\nb<em></em>`.
- ParseFacts.Heading3Line: the same restriction on the heading text. `## a*b*` gets an `<em>`, `## <li>a</li>` gets a `<ul>` inside the `<h3>`, and harmless text such as `## a<b` is not covered either.
- ParseFacts.BlockquoteLine: the quoted text must be one line without `*`, backtick or `<`. For example `> <p></p>` becomes `<blockquote></blockquote>` through line 88.
- ParseFacts.TwoItems: both item texts must be one line without `*`, backtick or `<`. A `<li>` or `</li>` inside an item would move the span that line 85 wraps.
- ParseFacts.TwoParagraphs: both lines must be non-empty, unmarked, and without `*`, backtick or `<`. An empty line would leave a `<p></p>` for line 88, and a marker or markup would bring in the other rules.
- ParseFacts.PlainLine: the line must be non-empty, unmarked, and without `*`, backtick or `<`, for the same reasons.
- Cards.PostCardLinks: states that the id appears in the handler and in both links. It does not state that no other `href` appears, because fields are inserted without escaping: a title can contain any markup.

=== FILE: cards.dfy ===
/**
 The HTML card templates of the blog and project listings, the tech-tag
 list, the link list of the project header, and the markup of the listing
 pages. Record fields are inserted verbatim, without escaping. Line
 numbers refer to `js/main-script.js`.
 */
module Cards {
  import opened Text
  import opened Catalog

  // ---------------------------------------------------------------------------
  // Links
  // ---------------------------------------------------------------------------

  /** The address of the page showing the entry `id`, on `article.html` or `project.html`. */
  function PageUrl(page: string, id: string): string {
    page + "?id=" + id
  }

  /** Characters that survive a URL and its query decoding unchanged. */
  predicate SlugChar(c: char) {
    'a' <= c <= 'z' || 'A' <= c <= 'Z' || '0' <= c <= '9' || c == '-' || c == '_'
  }

  /** An id the page can put in a query string and read back as it is. */
  predicate SlugId(id: string) {
    forall c :: c in id ==> SlugChar(c)
  }

  /**
   The `id` query value of an address of `page`, as the article and project
   pages read it (lines 182-183 and 216-217). Percent-decoding, `+` as a
   space, the end of the value at `&` and the `#` fragment are not modelled:
   none of them changes a slug.
   */
  function IdFromUrl(page: string, url: string): (r: Option<string>)
    ensures r.Some? ==> PageUrl(page, r.value) == url
  {
    var key := page + "?id=";
    if key <= url then
      assert url == key + url[|key|..];
      Some(url[|key|..])
    else None
  }

  /** For a slug id, reading the id back from an address gives the id it was built from. */
  lemma IdFromPageUrl(page: string, id: string)
    requires SlugId(id)
    ensures IdFromUrl(page, PageUrl(page, id)) == Some(id)
  {
    var key := page + "?id=";
    assert PageUrl(page, id) == key + id;
    assert (key + id)[|key|..] == id;
  }

  /** The `onclick` handler assignment: `href='URL'`. */
  function Navigation(url: string): string {
    "href='" + url + "'"
  }

  /**
   The address a click on a card leads to: the text between the first
   `href='` and the quote that closes it.
   */
  function OnclickTarget(card: string): Option<string> {
    match FirstIndex(card, "href='")
    case None => None
    case Some(k) =>
      var rest := card[k + 6..];
      match FirstIndex(rest, "'")
      case None => None
      case Some(e) => Some(rest[..e])
  }

  /** A card that opens with text without `h` and then its handler leads where the handler says. */
  lemma TargetAfterPrefix(p: string, url: string, card: string)
    requires 'h' !in p && '\'' !in url && p + Navigation(url) <= card
    ensures OnclickTarget(card) == Some(url)
  {
    var pat := "href='";
    var tail := card[|p + Navigation(url)|..];
    assert card == p + Navigation(url) + tail;
    var rest := url + "'" + tail;
    PrefixedTarget(p, rest);
    HandlerEnd(url, tail);
    Assoc(p, pat + url, "'");
    Assoc(p, pat, url);
    Assoc(p, pat, url + "'" + tail);
    Assoc(p + pat, url + "'", tail);
    Assoc(p + pat, url, "'");
  }

  lemma PrefixedTarget(p: string, rest: string)
    requires 'h' !in p
    ensures FirstIndex(p + ("href='" + rest), "href='") == Some(|p|)
    ensures (p + ("href='" + rest))[|p| + 6..] == rest
  {
    var pat := "href='";
    NotInLacks(p, 'h');
    LacksFirstIsClear(p, pat, 0);
    FirstIndexAfterClear(p, pat + rest, pat);
  }

  lemma HandlerEnd(url: string, tail: string)
    requires '\'' !in url
    ensures FirstIndex(url + "'" + tail, "'") == Some(|url|)
    ensures (url + "'" + tail)[..|url|] == url
  {
    NotInLacks(url, '\'');
    LacksFirstIsClear(url, "'", 0);
    assert url + "'" + tail == url + ("'" + tail);
    FirstIndexAfterClear(url, "'" + tail, "'");
  }

  /** A slug has no quote, so it cannot close the handler early. */
  lemma SlugHasNoQuote(id: string)
    requires SlugId(id)
    ensures '\'' !in id
  {
    assert !SlugChar('\'');
  }

  // ---------------------------------------------------------------------------
  // The post card (lines 115-124)
  // ---------------------------------------------------------------------------

  /** `${flag ? `<p>${text}</p>` : ""}` of lines 120 and 134. */
  function OptionalParagraph(show: bool, text: string): string {
    if show then "<p>" + text + "</p>" else ""
  }

  const PostCardOpening: string := "\n        <article class=\"post-card\"" + " onclick=\"window.location."
  const ProjectCardOpening: string := "\n        <div class=\"project-card\"" + " onclick=\"window.location."

  /** The text before each handler has no `h`, so the handler's `href='` is the first one. */
  lemma PostOpeningHasNoH()
    ensures 'h' !in PostCardOpening
  {
  }

  lemma ProjectOpeningHasNoH()
    ensures 'h' !in ProjectCardOpening
  {
  }

  /** A link opening tag `<a href="URL"` followed by the rest of its attributes. */
  function LinkTag(url: string, attributes: string): string {
    "<a href=\"" + url + "\"" + attributes + ">"
  }

  function PostMetaLine(a: Article): string {
    "\">" + "\n            <div class=\"post-meta\">" + a.date + " \U{2022} " + a.readTime + "</div>"
  }

  function TitleLink(a: Article): string {
    LinkTag(PageUrl("article.html", a.id), "") + a.title + "</a>"
  }

  /** The card up to the excerpt: opening tag with its handler, meta line and title link. */
  function PostCardTop(a: Article): string {
    PostCardOpening + Navigation(PageUrl("article.html", a.id)) + PostMetaLine(a)
    + ("\n            <h3>" + TitleLink(a) + "</h3>") + "\n            "
  }

  /** The card after the excerpt: the "Read more" link and the closing tag. */
  function PostCardBottom(a: Article): string {
    "\n            " + LinkTag(PageUrl("article.html", a.id), " class=\"read-more\"")
    + "Read more \U{2192}</a>" + "\n        </article>\n    "
  }

  /** `renderPostCard`; the excerpt is shown unless `showExcerpt` is false. */
  function RenderPostCard(a: Article, showExcerpt: bool := true): (r: string)
    ensures PostCardOpening + Navigation(PageUrl("article.html", a.id)) <= r
    ensures EndsWith(r, "\n        </article>\n    ")
  {
    var url := PageUrl("article.html", a.id);
    var head := PostCardOpening + Navigation(url);
    var titleLine := "\n            <h3>" + TitleLink(a) + "</h3>";
    var link := "\n            " + LinkTag(url, " class=\"read-more\"") + "Read more \U{2192}</a>";
    PrefixExtend(head, head, PostMetaLine(a));
    PrefixExtend(head, head + PostMetaLine(a), titleLine);
    PrefixExtend(head, head + PostMetaLine(a) + titleLine, "\n            ");
    EndsWithAppended(link, "\n        </article>\n    ");
    Framed(head, PostCardTop(a), OptionalParagraph(showExcerpt, a.excerpt), PostCardBottom(a), "\n        </article>\n    ");
    PostCardTop(a) + OptionalParagraph(showExcerpt, a.excerpt) + PostCardBottom(a)
  }

  /** The article's address is the click target and the target of both links. */
  lemma PostCardLinks(a: Article, showExcerpt: bool)
    ensures Occurs(RenderPostCard(a, showExcerpt), Navigation(PageUrl("article.html", a.id)))
    ensures Occurs(RenderPostCard(a, showExcerpt), LinkTag(PageUrl("article.html", a.id), "") + a.title + "</a>")
    ensures Occurs(RenderPostCard(a, showExcerpt), LinkTag(PageUrl("article.html", a.id), " class=\"read-more\""))
  {
    var url := PageUrl("article.html", a.id);
    var nav, meta, h3, nl := Navigation(url), PostMetaLine(a), "\n            <h3>", "\n            ";
    var titleLine := h3 + TitleLink(a) + "</h3>";
    var mid, bottom := OptionalParagraph(showExcerpt, a.excerpt), PostCardBottom(a);
    // The handler.
    OccursAtEnd(PostCardOpening, nav);
    OccursAppend(PostCardOpening + nav, nav, meta);
    OccursAppend(PostCardOpening + nav + meta, nav, titleLine);
    OccursAppend(PostCardOpening + nav + meta + titleLine, nav, nl);
    OccursAppend(PostCardTop(a), nav, mid);
    OccursAppend(PostCardTop(a) + mid, nav, bottom);
    // The title link.
    OccursAtEnd(h3, TitleLink(a));
    OccursAppend(h3 + TitleLink(a), TitleLink(a), "</h3>");
    OccursPrepend(PostCardOpening + nav + meta, titleLine, TitleLink(a));
    OccursAppend(PostCardOpening + nav + meta + titleLine, TitleLink(a), nl);
    OccursAppend(PostCardTop(a), TitleLink(a), mid);
    OccursAppend(PostCardTop(a) + mid, TitleLink(a), bottom);
    // The "Read more" link.
    var more := LinkTag(url, " class=\"read-more\"");
    OccursAtEnd(nl, more);
    OccursAppend(nl + more, more, "Read more \U{2192}</a>");
    OccursAppend(nl + more + "Read more \U{2192}</a>", more, "\n        </article>\n    ");
    OccursPrepend(PostCardTop(a) + mid, bottom, more);
  }

  /**
   The flag switches exactly the excerpt paragraph: the card with it is the
   card without it with `<p>excerpt</p>` inserted at one place.
   */
  lemma PostCardExcerptToggle(a: Article)
    ensures exists i :: (0 <= i <= |RenderPostCard(a, false)|
      && RenderPostCard(a, true) == RenderPostCard(a, false)[..i] + "<p>" + a.excerpt + "</p>" + RenderPostCard(a, false)[i..])
  {
    var top, bottom := PostCardTop(a), PostCardBottom(a);
    var on, off := RenderPostCard(a, true), RenderPostCard(a, false);
    var x := "<p>" + a.excerpt + "</p>";
    InsertedBetween(top, x, bottom);
    assert on == top + x + bottom;
    assert off == top + "" + bottom;
    assert top + "" == top;
    var i := |top|;
    assert on == off[..i] + x + off[i..];
    assert off[..i] + x == off[..i] + "<p>" + a.excerpt + "</p>";
    assert on == off[..i] + "<p>" + a.excerpt + "</p>" + off[i..];
  }

  /** Inserting `x` between two parts, seen from the text without it. */
  lemma InsertedBetween(top: string, x: string, bottom: string)
    ensures (top + bottom)[..|top|] == top && (top + bottom)[|top|..] == bottom
  {
  }

  /** Without the flag, the card does not depend on the excerpt. */
  lemma PostCardHidesExcerpt(a: Article, excerpt: string)
    ensures RenderPostCard(a, false) == RenderPostCard(a.(excerpt := excerpt), false)
  {
    assert PostCardTop(a) == PostCardTop(a.(excerpt := excerpt));
    assert PostCardBottom(a) == PostCardBottom(a.(excerpt := excerpt));
  }

  /** A click on a post card leads to the page of that article. */
  lemma PostCardNavigates(a: Article, showExcerpt: bool)
    requires SlugId(a.id)
    ensures OnclickTarget(RenderPostCard(a, showExcerpt)) == Some(PageUrl("article.html", a.id))
  {
    var url := PageUrl("article.html", a.id);
    var head := PostCardOpening + Navigation(url);
    var meta, titleLine := PostMetaLine(a), "\n            <h3>" + TitleLink(a) + "</h3>";
    var top, mid := PostCardTop(a), OptionalParagraph(showExcerpt, a.excerpt);
    PrefixExtend(head, head, meta);
    PrefixExtend(head, head + meta, titleLine);
    PrefixExtend(head, head + meta + titleLine, "\n            ");
    PrefixExtend(head, top, mid);
    PrefixExtend(head, top + mid, PostCardBottom(a));
    SlugHasNoQuote(a.id);
    PageNamesHaveNoQuote();
    UrlHasNoQuote("article.html", a.id);
    PostOpeningHasNoH();
    TargetAfterPrefix(PostCardOpening, url, RenderPostCard(a, showExcerpt));
  }

  /** A card that starts with `head` and ends with `tail` keeps both, whatever is put between. */
  lemma Framed(head: string, top: string, mid: string, bottom: string, tail: string)
    requires head <= top && EndsWith(bottom, tail)
    ensures head <= top + mid + bottom && EndsWith(top + mid + bottom, tail)
  {
    PrefixExtend(head, top, mid);
    PrefixExtend(head, top + mid, bottom);
    assert (top + mid + bottom)[|top + mid|..] == bottom;
  }

  /** A prefix of a text is a prefix of the text extended. */
  lemma PrefixExtend(h: string, b: string, c: string)
    requires h <= b
    ensures h <= b + c
  {
    assert (b + c)[..|h|] == b[..|h|];
  }

  lemma PageNamesHaveNoQuote()
    ensures '\'' !in "article.html" && '\'' !in "project.html"
  {
  }

  /** A page name without a quote and a slug give an address without a quote. */
  lemma UrlHasNoQuote(page: string, id: string)
    requires '\'' !in page && '\'' !in id
    ensures '\'' !in PageUrl(page, id)
  {
  }

  // ---------------------------------------------------------------------------
  // Tech tags (lines 127-129, repeated at 232-234)
  // ---------------------------------------------------------------------------

  const TagOpen: string := "<span class=\"tech-tag\">"
  const TagClose: string := "</span>"

  /** One `<span class="tech-tag">` per tech entry, in order, joined with nothing in between. */
  function TechTags(tech: seq<string>): string
    decreases |tech|
  {
    if tech == [] then "" else TagOpen + tech[0] + TagClose + TechTags(tech[1..])
  }

  /** `join("")` of a `map`: the tags of a concatenation are the concatenated tags. */
  lemma {:induction false} TechTagsAppend(xs: seq<string>, ys: seq<string>)
    decreases |xs|
    ensures TechTags(xs + ys) == TechTags(xs) + TechTags(ys)
  {
    if xs == [] {
      assert xs + ys == ys;
    } else {
      assert (xs + ys)[1..] == xs[1..] + ys;
      TechTagsAppend(xs[1..], ys);
    }
  }

  /** Reads a run of tech tags back into the entries, or `None` if the text is not such a run. */
  function ParseTechTags(s: string): Option<seq<string>>
    decreases |s|
  {
    if s == [] then Some([])
    else if !(TagOpen <= s) then None
    else
      var body := s[|TagOpen|..];
      match FirstIndex(body, TagClose)
      case None => None
      case Some(e) =>
        match ParseTechTags(body[e + |TagClose|..])
        case None => None
        case Some(rest) => Some([body[..e]] + rest)
  }

  /** No entry contains `<`, which would let an entry end its tag early. */
  predicate PlainEntries(tech: seq<string>) {
    forall i :: 0 <= i < |tech| ==> '<' !in tech[i]
  }

  /** One tag followed by more text is read as its entry, then the rest. */
  lemma ParseOneTag(t: string, rest: string)
    requires '<' !in t
    ensures ParseTechTags(TagOpen + t + TagClose + rest)
         == match ParseTechTags(rest) case None => None case Some(r) => Some([t] + r)
  {
    var body := t + (TagClose + rest);
    TagParts(TagOpen, t, TagClose, rest);
    NotInLacks(t, '<');
    LacksFirstIsClear(t, TagClose, 0);
    FirstIndexAfterClear(t, TagClose + rest, TagClose);
  }

  /** The parts of `o + t + c + rest` as the reader of tags cuts them. */
  lemma TagParts(o: string, t: string, c: string, rest: string)
    ensures o <= o + t + c + rest && (o + t + c + rest)[|o|..] == t + (c + rest)
    ensures (t + (c + rest))[..|t|] == t && (t + (c + rest))[|t| + |c|..] == rest
    ensures c <= c + rest
  {
    assert o + t + c + rest == o + (t + (c + rest));
  }

  /** Reading the tags back gives the entries they were made from. */
  lemma {:induction false} TechTagsRoundTrip(tech: seq<string>)
    requires PlainEntries(tech)
    decreases |tech|
    ensures ParseTechTags(TechTags(tech)) == Some(tech)
  {
    if tech != [] {
      TechTagsRoundTrip(tech[1..]);
      ParseOneTag(tech[0], TechTags(tech[1..]));
      assert [tech[0]] + tech[1..] == tech;
    }
  }

  // ---------------------------------------------------------------------------
  // The project card (lines 126-139)
  // ---------------------------------------------------------------------------

  /** The card up to the description: opening tag with its handler and the title. */
  function ProjectCardTop(p: Project): string {
    ProjectCardOpening + Navigation(PageUrl("project.html", p.id)) + "\">"
    + "\n            <h3>" + p.title + "</h3>" + "\n            "
  }

  /** The card after the description: tech tags, the "Learn more" link and the closing tag. */
  function ProjectCardBottom(p: Project): string {
    TechLine(p.tech)
    + "\n            " + LinkTag(PageUrl("project.html", p.id), " class=\"read-more\"")
    + "Learn more \U{2192}</a>" + "\n        </div>\n    "
  }

  function TechLine(tech: seq<string>): string {
    "\n            <div class=\"project-tech\">" + TechTags(tech) + "</div>"
  }

  /** `renderProjectCard`; the description is shown unless `showDescription` is false. */
  function RenderProjectCard(p: Project, showDescription: bool := true): (r: string)
    ensures ProjectCardOpening + Navigation(PageUrl("project.html", p.id)) <= r
    ensures EndsWith(r, "\n        </div>\n    ")
  {
    var url := PageUrl("project.html", p.id);
    var head := ProjectCardOpening + Navigation(url);
    var link := TechLine(p.tech) + "\n            " + LinkTag(url, " class=\"read-more\"") + "Learn more \U{2192}</a>";
    PrefixExtend(head, head, "\">");
    PrefixExtend(head, head + "\">", "\n            <h3>");
    PrefixExtend(head, head + "\">" + "\n            <h3>", p.title);
    PrefixExtend(head, head + "\">" + "\n            <h3>" + p.title, "</h3>");
    PrefixExtend(head, head + "\">" + "\n            <h3>" + p.title + "</h3>", "\n            ");
    EndsWithAppended(link, "\n        </div>\n    ");
    Framed(head, ProjectCardTop(p), OptionalParagraph(showDescription, p.description), ProjectCardBottom(p), "\n        </div>\n    ");
    ProjectCardTop(p) + OptionalParagraph(showDescription, p.description) + ProjectCardBottom(p)
  }

  /** The project's address is the click target and the target of the "Learn more" link. */
  lemma ProjectCardLinks(p: Project, showDescription: bool)
    ensures Occurs(RenderProjectCard(p, showDescription), Navigation(PageUrl("project.html", p.id)))
    ensures Occurs(RenderProjectCard(p, showDescription), LinkTag(PageUrl("project.html", p.id), " class=\"read-more\""))
  {
    var url := PageUrl("project.html", p.id);
    var nav := Navigation(url);
    var top, mid, bottom := ProjectCardTop(p), OptionalParagraph(showDescription, p.description), ProjectCardBottom(p);
    // The handler.
    var h := ProjectCardOpening + nav;
    OccursAtEnd(ProjectCardOpening, nav);
    OccursAppend(h, nav, "\">");
    OccursAppend(h + "\">", nav, "\n            <h3>");
    OccursAppend(h + "\">" + "\n            <h3>", nav, p.title);
    OccursAppend(h + "\">" + "\n            <h3>" + p.title, nav, "</h3>");
    OccursAppend(h + "\">" + "\n            <h3>" + p.title + "</h3>", nav, "\n            ");
    OccursAppend(top, nav, mid);
    OccursAppend(top + mid, nav, bottom);
    // The "Learn more" link.
    var more := LinkTag(url, " class=\"read-more\"");
    OccursAtEnd(TechLine(p.tech) + "\n            ", more);
    OccursAppend(TechLine(p.tech) + "\n            " + more, more, "Learn more \U{2192}</a>");
    OccursAppend(TechLine(p.tech) + "\n            " + more + "Learn more \U{2192}</a>", more, "\n        </div>\n    ");
    OccursPrepend(top + mid, bottom, more);
  }

  /** Every tech entry has its tag on the card. */
  lemma ProjectCardTags(p: Project, showDescription: bool, k: nat)
    requires k < |p.tech|
    ensures Occurs(RenderProjectCard(p, showDescription), TagOpen + p.tech[k] + TagClose)
  {
    var url := PageUrl("project.html", p.id);
    var more := LinkTag(url, " class=\"read-more\"");
    var top, mid, bottom := ProjectCardTop(p), OptionalParagraph(showDescription, p.description), ProjectCardBottom(p);
    var tag := TagOpen + p.tech[k] + TagClose;
    var open := "\n            <div class=\"project-tech\">";
    TagOccurs(p.tech, k);
    OccursPrepend(open, TechTags(p.tech), tag);
    OccursAppend(open + TechTags(p.tech), tag, "</div>");
    OccursAppend(TechLine(p.tech), tag, "\n            ");
    OccursAppend(TechLine(p.tech) + "\n            ", tag, more);
    OccursAppend(TechLine(p.tech) + "\n            " + more, tag, "Learn more \U{2192}</a>");
    OccursAppend(TechLine(p.tech) + "\n            " + more + "Learn more \U{2192}</a>", tag, "\n        </div>\n    ");
    OccursPrepend(top + mid, bottom, tag);
  }

  /** The tag of every entry occurs in the tag run. */
  lemma {:induction false} TagOccurs(tech: seq<string>, k: nat)
    requires k < |tech|
    decreases k
    ensures Occurs(TechTags(tech), TagOpen + tech[k] + TagClose)
  {
    var first := TagOpen + tech[0] + TagClose;
    assert TechTags(tech) == first + TechTags(tech[1..]);
    if k == 0 {
      OccursAtStart(first, TechTags(tech[1..]));
    } else {
      TagOccurs(tech[1..], k - 1);
      OccursPrepend(first, TechTags(tech[1..]), TagOpen + tech[k] + TagClose);
    }
  }

  /** The flag switches exactly the description paragraph. */
  lemma ProjectCardDescriptionToggle(p: Project)
    ensures exists i :: (0 <= i <= |RenderProjectCard(p, false)|
      && RenderProjectCard(p, true) == RenderProjectCard(p, false)[..i] + "<p>" + p.description + "</p>" + RenderProjectCard(p, false)[i..])
  {
    var top, bottom := ProjectCardTop(p), ProjectCardBottom(p);
    var on, off := RenderProjectCard(p, true), RenderProjectCard(p, false);
    var x := "<p>" + p.description + "</p>";
    InsertedBetween(top, x, bottom);
    assert on == top + x + bottom;
    assert off == top + "" + bottom;
    assert top + "" == top;
    var i := |top|;
    assert on == off[..i] + x + off[i..];
    assert off[..i] + x == off[..i] + "<p>" + p.description + "</p>";
    assert on == off[..i] + "<p>" + p.description + "</p>" + off[i..];
  }

  /** Without the flag, the card does not depend on the description. */
  lemma ProjectCardHidesDescription(p: Project, description: string)
    ensures RenderProjectCard(p, false) == RenderProjectCard(p.(description := description), false)
  {
    assert ProjectCardTop(p) == ProjectCardTop(p.(description := description));
    assert ProjectCardBottom(p) == ProjectCardBottom(p.(description := description));
  }

  /** A click on a project card leads to the page of that project. */
  lemma ProjectCardNavigates(p: Project, showDescription: bool)
    requires SlugId(p.id)
    ensures OnclickTarget(RenderProjectCard(p, showDescription)) == Some(PageUrl("project.html", p.id))
  {
    var url := PageUrl("project.html", p.id);
    var head := ProjectCardOpening + Navigation(url);
    var top, mid := ProjectCardTop(p), OptionalParagraph(showDescription, p.description);
    PrefixExtend(head, head, "\">");
    PrefixExtend(head, head + "\">", "\n            <h3>");
    PrefixExtend(head, head + "\">" + "\n            <h3>", p.title);
    PrefixExtend(head, head + "\">" + "\n            <h3>" + p.title, "</h3>");
    PrefixExtend(head, head + "\">" + "\n            <h3>" + p.title + "</h3>", "\n            ");
    PrefixExtend(head, top, mid);
    PrefixExtend(head, top + mid, ProjectCardBottom(p));
    SlugHasNoQuote(p.id);
    PageNamesHaveNoQuote();
    UrlHasNoQuote("project.html", p.id);
    ProjectOpeningHasNoH();
    TargetAfterPrefix(ProjectCardOpening, url, RenderProjectCard(p, showDescription));
  }

  // ---------------------------------------------------------------------------
  // From a card to the entry it shows
  // ---------------------------------------------------------------------------

  /** Following a post card's handler and looking the id up finds the article the card was made from. */
  lemma PostCardOpensArticle(xs: seq<Article>, k: nat, showExcerpt: bool)
    requires k < |xs| && UniqueIds(ArticleIds(xs)) && SlugId(xs[k].id)
    ensures OnclickTarget(RenderPostCard(xs[k], showExcerpt)).Some?
    ensures IdFromUrl("article.html", OnclickTarget(RenderPostCard(xs[k], showExcerpt)).value) == Some(xs[k].id)
    ensures FindArticle(xs, xs[k].id) == Some(xs[k])
  {
    PostCardNavigates(xs[k], showExcerpt);
    IdFromPageUrl("article.html", xs[k].id);
    FindArticleOwnId(xs, k);
  }

  /** Following a project card's handler and looking the id up finds the project the card was made from. */
  lemma ProjectCardOpensProject(xs: seq<Project>, k: nat, showDescription: bool)
    requires k < |xs| && UniqueIds(ProjectIds(xs)) && SlugId(xs[k].id)
    ensures OnclickTarget(RenderProjectCard(xs[k], showDescription)).Some?
    ensures IdFromUrl("project.html", OnclickTarget(RenderProjectCard(xs[k], showDescription)).value) == Some(xs[k].id)
    ensures FindProject(xs, xs[k].id) == Some(xs[k])
  {
    ProjectCardNavigates(xs[k], showDescription);
    IdFromPageUrl("project.html", xs[k].id);
    FindProjectOwnId(xs, k);
  }

  // ---------------------------------------------------------------------------
  // Listings (lines 147-149, 157-159, 166-168, 175-177)
  // ---------------------------------------------------------------------------

  /** `parts.join("")`. */
  function Concat(parts: seq<string>): string
    decreases |parts|
  {
    if parts == [] then "" else parts[0] + Concat(parts[1..])
  }

  lemma {:induction false} ConcatAppend(a: seq<string>, b: seq<string>)
    decreases |a|
    ensures Concat(a + b) == Concat(a) + Concat(b)
  {
    if a == [] {
      assert a + b == b;
    } else {
      assert (a + b)[0] == a[0] && (a + b)[1..] == a[1..] + b;
      ConcatAppend(a[1..], b);
    }
  }

  /** The card of each article, with its excerpt, in order. */
  function PostCards(xs: seq<Article>): seq<string> {
    seq(|xs|, i requires 0 <= i < |xs| => RenderPostCard(xs[i], true))
  }

  /** The card of each project, with its description, in order. */
  function ProjectCards(xs: seq<Project>): seq<string> {
    seq(|xs|, i requires 0 <= i < |xs| => RenderProjectCard(xs[i], true))
  }

  function PostList(xs: seq<Article>): string {
    Concat(PostCards(xs))
  }

  function ProjectList(xs: seq<Project>): string {
    Concat(ProjectCards(xs))
  }

  /** Listing two runs of articles one after the other is listing them together. */
  lemma PostListAppend(xs: seq<Article>, ys: seq<Article>)
    ensures PostList(xs + ys) == PostList(xs) + PostList(ys)
  {
    assert PostCards(xs + ys) == PostCards(xs) + PostCards(ys);
    ConcatAppend(PostCards(xs), PostCards(ys));
  }

  /** Listing two runs of projects one after the other is listing them together. */
  lemma ProjectListAppend(xs: seq<Project>, ys: seq<Project>)
    ensures ProjectList(xs + ys) == ProjectList(xs) + ProjectList(ys)
  {
    assert ProjectCards(xs + ys) == ProjectCards(xs) + ProjectCards(ys);
    ConcatAppend(ProjectCards(xs), ProjectCards(ys));
  }

  /** The home page's recent posts are the first cards of the blog page, and nothing else comes before them. */
  lemma HomePostsStartBlog(xs: seq<Article>)
    ensures PostList(xs) == PostList(HomeArticles(xs)) + PostList(xs[|HomeArticles(xs)|..])
  {
    TakeFirstSplits(xs, 2);
    PostListAppend(HomeArticles(xs), xs[|HomeArticles(xs)|..]);
  }

  /** The home page's featured projects are the first cards of the projects page. */
  lemma HomeProjectsStartProjects(xs: seq<Project>)
    ensures ProjectList(xs) == ProjectList(HomeProjects(xs)) + ProjectList(xs[|HomeProjects(xs)|..])
  {
    TakeFirstSplits(xs, 2);
    ProjectListAppend(HomeProjects(xs), xs[|HomeProjects(xs)|..]);
  }

  // ---------------------------------------------------------------------------
  // Project header links (lines 236-244, joined at 251)
  // ---------------------------------------------------------------------------

  /** JavaScript truthiness of a link that may be `null`: present and not empty. */
  predicate Truthy(link: Option<string>) {
    link.Some? && |link.value| > 0
  }

  function ProjectLink(url: string, caption: string): string {
    LinkTag(url, " target=\"_blank\" class=\"project-link\"") + caption + "</a>"
  }

  /** The header links: GitHub first when present, then the live demo when present. */
  function ProjectLinks(p: Project): (links: seq<string>)
    ensures |links| == (if Truthy(p.github) then 1 else 0) + (if Truthy(p.demo) then 1 else 0)
    ensures Truthy(p.github) ==> links[0] == ProjectLink(p.github.value, "GitHub")
    ensures Truthy(p.demo) ==> links[|links| - 1] == ProjectLink(p.demo.value, "Live Demo")
  {
    (if Truthy(p.github) then [ProjectLink(p.github.value, "GitHub")] else [])
    + (if Truthy(p.demo) then [ProjectLink(p.demo.value, "Live Demo")] else [])
  }

  /** An empty link is dropped exactly as a missing one is. */
  lemma EmptyLinkIsMissing(p: Project)
    ensures ProjectLinks(p.(github := Some(""))) == ProjectLinks(p.(github := None))
    ensures ProjectLinks(p.(demo := Some(""))) == ProjectLinks(p.(demo := None))
  {
  }

  /** The markup of the link list: both anchors in order, one, or nothing. */
  lemma LinksMarkup(p: Project)
    ensures Truthy(p.github) && Truthy(p.demo) ==>
      Concat(ProjectLinks(p)) == ProjectLink(p.github.value, "GitHub") + ProjectLink(p.demo.value, "Live Demo")
    ensures !Truthy(p.github) && !Truthy(p.demo) ==> Concat(ProjectLinks(p)) == ""
    ensures Truthy(p.github) != Truthy(p.demo) ==> |ProjectLinks(p)| == 1 && Concat(ProjectLinks(p)) == ProjectLinks(p)[0]
  {
    var links := ProjectLinks(p);
    if |links| == 2 {
      assert links[1..][1..] == [];
      assert Concat(links[1..]) == links[1] + "";
      assert Concat(links) == links[0] + Concat(links[1..]);
      assert links[1] + "" == links[1];
    } else if |links| == 1 {
      assert links[1..] == [];
      assert Concat(links) == links[0] + "";
    }
  }
}

=== FILE: catalog.dfy ===
/**
 The article and project records the pages are built from, lookup by id as
 the article and project pages do it, and the "first two" selection of the
 home page. Line numbers refer to `js/main-script.js`.
 */
module Catalog {
  import opened Text

  /** One blog article. `date` is kept as the text the catalog holds. */
  datatype Article = Article(
    id: string,
    title: string,
    date: string,
    readTime: string,
    excerpt: string,
    file: string)

  /**
   One project. `github` and `demo` may be missing (`null` in the catalog);
   the page treats an empty link like a missing one.
   */
  datatype Project = Project(
    id: string,
    title: string,
    description: string,
    tech: seq<string>,
    github: Option<string>,
    demo: Option<string>,
    file: string)

  /** Ids are pairwise distinct. */
  predicate UniqueIds(ids: seq<string>) {
    forall i, j :: 0 <= i < j < |ids| ==> ids[i] != ids[j]
  }

  function ArticleIds(xs: seq<Article>): (ids: seq<string>)
    ensures |ids| == |xs|
    ensures forall i :: 0 <= i < |xs| ==> ids[i] == xs[i].id
  {
    if xs == [] then [] else [xs[0].id] + ArticleIds(xs[1..])
  }

  function ProjectIds(xs: seq<Project>): (ids: seq<string>)
    ensures |ids| == |xs|
    ensures forall i :: 0 <= i < |xs| ==> ids[i] == xs[i].id
  {
    if xs == [] then [] else [xs[0].id] + ProjectIds(xs[1..])
  }

  /**
   `Array.prototype.find` with the strict comparison `x.id === id`, on the
   list of ids: the least position holding `id`, if any.
   */
  function FindId(ids: seq<string>, id: string): (r: Option<nat>)
    ensures r.None? <==> forall i :: 0 <= i < |ids| ==> ids[i] != id
    ensures r.Some? ==> r.value < |ids| && ids[r.value] == id
    ensures r.Some? ==> forall i :: 0 <= i < r.value ==> ids[i] != id
  {
    if ids == [] then None
    else if ids[0] == id then Some(0)
    else match FindId(ids[1..], id)
      case None => None
      case Some(k) => Some(k + 1)
  }

  /** Lines 185 and 219: the article or project page looks its record up by the `id` query value. */
  function FindArticle(xs: seq<Article>, id: string): (r: Option<Article>)
    ensures r.None? <==> forall i :: 0 <= i < |xs| ==> xs[i].id != id
    ensures r.Some? ==> r.value.id == id
    ensures r.Some? ==> exists k :: 0 <= k < |xs| && xs[k] == r.value && forall i :: 0 <= i < k ==> xs[i].id != id
  {
    match FindId(ArticleIds(xs), id)
    case None => None
    case Some(k) => Some(xs[k])
  }

  function FindProject(xs: seq<Project>, id: string): (r: Option<Project>)
    ensures r.None? <==> forall i :: 0 <= i < |xs| ==> xs[i].id != id
    ensures r.Some? ==> r.value.id == id
    ensures r.Some? ==> exists k :: 0 <= k < |xs| && xs[k] == r.value && forall i :: 0 <= i < k ==> xs[i].id != id
  {
    match FindId(ProjectIds(xs), id)
    case None => None
    case Some(k) => Some(xs[k])
  }

  /** With distinct ids, the lookup of the id at position `k` finds position `k`. */
  lemma FindIdUnique(ids: seq<string>, k: nat)
    requires k < |ids| && UniqueIds(ids)
    ensures FindId(ids, ids[k]) == Some(k)
  {
    var r := FindId(ids, ids[k]);
    assert r.Some?;
  }

  /** With distinct ids, looking up the id of any entry finds that entry. */
  lemma FindArticleOwnId(xs: seq<Article>, k: nat)
    requires k < |xs| && UniqueIds(ArticleIds(xs))
    ensures FindArticle(xs, xs[k].id) == Some(xs[k])
  {
    FindIdUnique(ArticleIds(xs), k);
  }

  lemma FindProjectOwnId(xs: seq<Project>, k: nat)
    requires k < |xs| && UniqueIds(ProjectIds(xs))
    ensures FindProject(xs, xs[k].id) == Some(xs[k])
  {
    FindIdUnique(ProjectIds(xs), k);
  }

  /** `slice(0, n)`: the first `n` entries, or all of them when there are fewer. */
  function TakeFirst<T>(xs: seq<T>, n: nat): (r: seq<T>)
    ensures |r| == if n <= |xs| then n else |xs|
    ensures forall i :: 0 <= i < |r| ==> r[i] == xs[i]
  {
    if n <= |xs| then xs[..n] else xs
  }

  /** Taking a prefix loses nothing else: the rest of the list follows it. */
  lemma TakeFirstSplits<T>(xs: seq<T>, n: nat)
    ensures TakeFirst(xs, n) + xs[|TakeFirst(xs, n)|..] == xs
  {
    var r := TakeFirst(xs, n);
    assert r == xs[..|r|];
  }

  /** Lines 146 and 156: the home page shows the first two entries of each catalog. */
  function HomeArticles(xs: seq<Article>): (r: seq<Article>)
    ensures |r| <= 2 && (|xs| >= 2 ==> |r| == 2) && (|xs| < 2 ==> r == xs)
    ensures forall i :: 0 <= i < |r| ==> r[i] == xs[i]
  {
    TakeFirst(xs, 2)
  }

  function HomeProjects(xs: seq<Project>): (r: seq<Project>)
    ensures |r| <= 2 && (|xs| >= 2 ==> |r| == 2) && (|xs| < 2 ==> r == xs)
    ensures forall i :: 0 <= i < |r| ==> r[i] == xs[i]
  {
    TakeFirst(xs, 2)
  }
}

=== FILE: inline.dfy ===
/**
 The inline substitution rules `/D(.*?)D/g`: a delimiter `D`, the shortest
 run after it up to the next `D`, and a replacement that wraps the run in a
 pair of tags. Without the dot-all reading the run may not contain a line
 terminator, which is how `.` behaves; with it the run may contain anything,
 which is how `[\s\S]` behaves.
 */
module Inline {
  import opened Text
  import opened Lines

  /**
   The start of the closing delimiter for a lazy run that begins at `i`: the
   least index at or after `i` where `d` occurs, provided the run up to it
   stays on one line (unless `dotAll`).
   */
  function CloseFrom(s: string, d: string, dotAll: bool, i: nat): (r: Option<nat>)
    requires i <= |s|
    decreases |s| - i
    ensures r.Some? ==> i <= r.value && OccursAt(s, d, r.value)
    ensures r.Some? ==> forall j :: i <= j < r.value ==> !OccursAt(s, d, j)
    ensures r.Some? && !dotAll ==> SingleLine(s[i..r.value])
    ensures r.None? ==> forall j :: i <= j <= |s| && OccursAt(s, d, j) ==> !dotAll && !SingleLine(s[i..j])
  {
    if OccursAt(s, d, i) then Some(i)
    else if i == |s| || (!dotAll && IsLineTerminator(s[i])) then None
    else
      var r := CloseFrom(s, d, dotAll, i + 1);
      assert r.Some? && !dotAll ==> s[i..r.value] == [s[i]] + s[i + 1..r.value];
      assert forall j :: i + 1 <= j <= |s| ==> s[i..j] == [s[i]] + s[i + 1..j];
      r
  }

  /**
   `s.replace(/D(.*?)D/g, open + "$1" + close)`, or with `[\s\S]` in place
   of `.` when `dotAll`: at each position, in order, an opening `d` followed
   by a closing `d` is replaced and the scan resumes after the closing `d`;
   otherwise one character is kept and the scan moves on by one.
   */
  function ReplaceDelimited(s: string, d: string, open: string, close: string, dotAll: bool): string
    requires |d| > 0
    decreases |s|
  {
    if |s| == 0 then []
    else if d <= s then
      match CloseFrom(s, d, dotAll, |d|)
      case Some(k) => open + s[|d|..k] + close + ReplaceDelimited(s[k + |d|..], d, open, close, dotAll)
      case None => [s[0]] + ReplaceDelimited(s[1..], d, open, close, dotAll)
    else [s[0]] + ReplaceDelimited(s[1..], d, open, close, dotAll)
  }

  /** A text without the delimiter's first character passes through unchanged. */
  lemma {:induction false} DelimitedAbsent(s: string, d: string, open: string, close: string, dotAll: bool)
    requires |d| > 0 && Lacks(s, d[0])
    decreases |s|
    ensures ReplaceDelimited(s, d, open, close, dotAll) == s
  {
    if |s| > 0 {
      assert !(d <= s);
      DelimitedAbsent(s[1..], d, open, close, dotAll);
    }
  }

  /** Text without the delimiter's first character is copied through, and the scan resumes after it. */
  lemma {:induction false} DelimitedSkipsPlain(x: string, rest: string, d: string, open: string, close: string, dotAll: bool)
    requires |d| > 0 && Lacks(x, d[0])
    decreases |x|
    ensures ReplaceDelimited(x + rest, d, open, close, dotAll) == x + ReplaceDelimited(rest, d, open, close, dotAll)
  {
    if |x| > 0 {
      var s := x + rest;
      assert s[0] == x[0] && s[1..] == x[1..] + rest;
      DelimitedSkipStep(s, d, open, close, dotAll);
      DelimitedSkipsPlain(x[1..], rest, d, open, close, dotAll);
      assert [x[0]] + x[1..] == x;
    } else {
      assert x + rest == rest;
    }
  }

  /** No occurrence of `d` starts inside `x` when `x` is followed by `d`: nothing in the run closes it early. */
  predicate NoEarlyClose(x: string, d: string) {
    forall j :: 0 <= j < |x| ==> !OccursAt(x + d, d, j)
  }

  /** A run without the delimiter's first character cannot close early. */
  lemma LacksNoEarlyClose(x: string, d: string)
    requires |d| > 0 && Lacks(x, d[0])
    ensures NoEarlyClose(x, d)
  {
    forall j | 0 <= j < |x|
      ensures !OccursAt(x + d, d, j)
    {
      assert (x + d)[j] == x[j];
    }
  }

  /**
   Laziness: the run ends at the first closing delimiter. When no
   occurrence of `d` starts inside the run `x` (and `x` holds no line
   terminator, for `.`), `d + x + d` becomes `open + x + close` and the scan
   resumes at `y`.
   */
  lemma DelimitedFirstClose(d: string, x: string, y: string, open: string, close: string, dotAll: bool)
    requires |d| > 0 && NoEarlyClose(x, d)
    requires !dotAll ==> SingleLine(x)
    ensures ReplaceDelimited(d + x + d + y, d, open, close, dotAll)
         == open + x + close + ReplaceDelimited(y, d, open, close, dotAll)
  {
    var s := d + x + d + y;
    assert d <= s;
    var e := |d| + |x|;
    assert OccursAt(s, d, e) by { assert s[e..] == d + y; }
    forall j | |d| <= j < e
      ensures !OccursAt(s, d, j)
    {
      InnerWindow(d, x, y, j - |d|);
    }
    assert s[|d|..e] == x;
    CloseAt(s, d, dotAll, |d|, e);
    assert s[e + |d|..] == y;
  }

  /** Inside the run, `d + x + d + y` matches `d` exactly where `x + d` does. */
  lemma InnerWindow(d: string, x: string, y: string, k: nat)
    requires k < |x| && !OccursAt(x + d, d, k)
    ensures !OccursAt(d + x + d + y, d, |d| + k)
  {
    var s, t := d + x + d + y, x + d;
    assert s == d + t + y;
    assert s[|d| + k..|d| + k + |d|] == t[k..k + |d|];
  }

  /** `CloseFrom` finds a closing delimiter that nothing before it pre-empts. */
  lemma {:induction false} CloseAt(s: string, d: string, dotAll: bool, i: nat, e: nat)
    requires i <= e <= |s| && OccursAt(s, d, e)
    requires forall j :: i <= j < e ==> !OccursAt(s, d, j)
    requires !dotAll ==> SingleLine(s[i..e])
    decreases e - i
    ensures CloseFrom(s, d, dotAll, i) == Some(e)
  {
    if i < e {
      assert s[i] == s[i..e][0];
      assert s[i + 1..e] == s[i..e][1..];
      CloseAt(s, d, dotAll, i + 1, e);
    }
  }

  /**
   Behind a line terminator, the lazy search sees exactly what it sees in the
   line before it: the closing delimiter is found on the same line or not at all.
   */
  lemma {:induction false} CloseFromLine(a: string, t: char, b: string, d: string, i: nat)
    requires |d| > 0 && SingleLine(d) && IsLineTerminator(t) && i <= |a|
    decreases |a| - i
    ensures CloseFrom(a + [t] + b, d, false, i) == CloseFrom(a, d, false, i)
  {
    var s := a + [t] + b;
    if i + |d| <= |a| {
      assert s[i..][..|d|] == a[i..][..|d|];
    } else {
      assert s[|a|] == t;
      assert !OccursAt(s, d, i);
    }
    if i < |a| && !OccursAt(a, d, i) {
      assert s[i] == a[i];
      CloseFromLine(a, t, b, d, i + 1);
    }
  }

  /** One step of the scan when a replacement is made at the start of `s`. */
  lemma DelimitedMatchStep(s: string, d: string, open: string, close: string, dotAll: bool, k: nat)
    requires |d| > 0 && d <= s && CloseFrom(s, d, dotAll, |d|) == Some(k)
    ensures k + |d| <= |s|
    ensures ReplaceDelimited(s, d, open, close, dotAll)
         == open + s[|d|..k] + close + ReplaceDelimited(s[k + |d|..], d, open, close, dotAll)
  {
  }

  /** One step of the scan when no replacement starts at the first character. */
  lemma DelimitedSkipStep(s: string, d: string, open: string, close: string, dotAll: bool)
    requires |d| > 0 && |s| > 0
    requires !(d <= s) || CloseFrom(s, d, dotAll, |d|).None?
    ensures ReplaceDelimited(s, d, open, close, dotAll)
         == [s[0]] + ReplaceDelimited(s[1..], d, open, close, dotAll)
  {
  }

  /** A delimiter without terminators cannot reach across a line break. */
  lemma PrefixBeforeBreak(a: string, t: char, b: string, d: string)
    requires SingleLine(d) && IsLineTerminator(t)
    ensures d <= a + [t] + b <==> d <= a
  {
    var s := a + [t] + b;
    if |d| <= |a| {
      assert s[..|d|] == a[..|d|];
    } else if |d| <= |s| {
      assert !IsLineTerminator(d[|a|]);
      assert s[|a|] == t;
    }
  }

  /**
   Without the dot-all reading no replacement spans a line break: the rule
   acts on the text before a terminator and on the text after it independently.
   */
  lemma {:induction false} DelimitedLineLocal(a: string, t: char, b: string, d: string, open: string, close: string)
    requires |d| > 0 && SingleLine(d) && SingleLine(a) && IsLineTerminator(t)
    decreases |a|, 1
    ensures ReplaceDelimited(a + [t] + b, d, open, close, false)
         == ReplaceDelimited(a, d, open, close, false) + [t] + ReplaceDelimited(b, d, open, close, false)
  {
    var s := a + [t] + b;
    if |a| == 0 {
      PrefixBeforeBreak(a, t, b, d);
      assert s[1..] == b;
    } else if d <= a {
      LineLocalOpening(a, t, b, d, open, close);
    } else {
      LineLocalPlain(a, t, b, d, open, close);
    }
  }

  lemma {:induction false} LineLocalOpening(a: string, t: char, b: string, d: string, open: string, close: string)
    requires |d| > 0 && SingleLine(d) && SingleLine(a) && IsLineTerminator(t)
    requires |a| > 0 && d <= a
    decreases |a|, 0
    ensures ReplaceDelimited(a + [t] + b, d, open, close, false)
         == ReplaceDelimited(a, d, open, close, false) + [t] + ReplaceDelimited(b, d, open, close, false)
  {
    var s := a + [t] + b;
    PrefixBeforeBreak(a, t, b, d);
    CloseFromLine(a, t, b, d, |d|);
    var c := CloseFrom(a, d, false, |d|);
    if c.Some? {
      var k := c.value;
      var a' := a[k + |d|..];
      assert k + |d| <= |a|;
      assert s[|d|..k] == a[|d|..k];
      assert s[k + |d|..] == a' + [t] + b;
      DelimitedLineLocal(a', t, b, d, open, close);
      var w, x, y := open + a[|d|..k] + close, ReplaceDelimited(a', d, open, close, false), ReplaceDelimited(b, d, open, close, false);
      DelimitedMatchStep(s, d, open, close, false, k);
      DelimitedMatchStep(a, d, open, close, false, k);
      Assoc(w, x + [t], y);
      Assoc(w, x, [t]);
    } else {
      assert s[1..] == a[1..] + [t] + b;
      DelimitedLineLocal(a[1..], t, b, d, open, close);
      var x, y := ReplaceDelimited(a[1..], d, open, close, false), ReplaceDelimited(b, d, open, close, false);
      assert s[0] == a[0];
      DelimitedSkipStep(s, d, open, close, false);
      DelimitedSkipStep(a, d, open, close, false);
      Assoc([a[0]], x + [t], y);
      Assoc([a[0]], x, [t]);
    }
  }

  lemma {:induction false} LineLocalPlain(a: string, t: char, b: string, d: string, open: string, close: string)
    requires |d| > 0 && SingleLine(d) && SingleLine(a) && IsLineTerminator(t)
    requires |a| > 0 && !(d <= a)
    decreases |a|, 0
    ensures ReplaceDelimited(a + [t] + b, d, open, close, false)
         == ReplaceDelimited(a, d, open, close, false) + [t] + ReplaceDelimited(b, d, open, close, false)
  {
    var s := a + [t] + b;
    PrefixBeforeBreak(a, t, b, d);
    assert s[1..] == a[1..] + [t] + b;
    DelimitedLineLocal(a[1..], t, b, d, open, close);
    var x, y := ReplaceDelimited(a[1..], d, open, close, false), ReplaceDelimited(b, d, open, close, false);
    assert s[0] == a[0];
    DelimitedSkipStep(s, d, open, close, false);
    DelimitedSkipStep(a, d, open, close, false);
    Assoc([a[0]], x + [t], y);
    Assoc([a[0]], x, [t]);
  }
}

=== FILE: lines.dfy ===
/**
 Line structure of a text as seen by a JavaScript regular expression with the
 `m` flag: `^` and `$` match at the edges of each line, and a line ends at any
 of the four line-terminator characters.
 */
module Lines {

  /** The characters that end a line for `^`, `$` and `.` in a JavaScript regular expression. */
  predicate IsLineTerminator(c: char) {
    c == '\n' || c == '\r' || c == '\U{2028}' || c == '\U{2029}'
  }

  /** `s` lies within one line. */
  predicate SingleLine(s: string) {
    forall i :: 0 <= i < |s| ==> !IsLineTerminator(s[i])
  }

  /** The index of the first line terminator at or after `i`, or `|s|` if there is none. */
  function LineEnd(s: string, i: nat): (e: nat)
    requires i <= |s|
    decreases |s| - i
    ensures i <= e <= |s|
    ensures SingleLine(s[i..e])
    ensures e < |s| ==> IsLineTerminator(s[e])
  {
    if i == |s| || IsLineTerminator(s[i]) then i else LineEnd(s, i + 1)
  }

  /** The lines of `s` and the terminators between them, in order. */
  function Split(s: string): (r: (seq<string>, string))
    decreases |s|
    ensures |r.0| == |r.1| + 1
    ensures forall k :: 0 <= k < |r.0| ==> SingleLine(r.0[k])
    ensures forall k :: 0 <= k < |r.1| ==> IsLineTerminator(r.1[k])
  {
    var e := LineEnd(s, 0);
    if e == |s| then ([s], [])
    else
      var rest := Split(s[e + 1..]);
      ([s[..e]] + rest.0, [s[e]] + rest.1)
  }

  /** The lines of `s`, in order; a text with `n` terminators has `n + 1` lines. */
  function SplitLines(s: string): (ls: seq<string>)
    ensures |ls| >= 1
    ensures forall k :: 0 <= k < |ls| ==> SingleLine(ls[k])
  {
    Split(s).0
  }

  /** The terminators of `s`, in order. */
  function Breaks(s: string): (bs: string)
    ensures |bs| + 1 == |SplitLines(s)|
    ensures forall k :: 0 <= k < |bs| ==> IsLineTerminator(bs[k])
  {
    Split(s).1
  }

  /** Puts lines back together, the `k`-th terminator between lines `k` and `k + 1`. */
  function Join(ls: seq<string>, bs: string): string
    requires |ls| == |bs| + 1
    decreases |bs|
  {
    if |bs| == 0 then ls[0] else ls[0] + [bs[0]] + Join(ls[1..], bs[1..])
  }

  /** One step of `Join`: the first line, the first terminator, then the rest. */
  lemma JoinStep(ls: seq<string>, bs: string)
    requires |ls| == |bs| + 1 && |bs| > 0
    ensures Join(ls, bs) == ls[0] + [bs[0]] + Join(ls[1..], bs[1..])
  {
  }

  /** `Join` of a list with a first line and a first terminator. */
  lemma JoinCons(l: string, ls: seq<string>, b: char, bs: string)
    requires |ls| == |bs| + 1
    ensures Join([l] + ls, [b] + bs) == l + [b] + Join(ls, bs)
  {
    assert ([l] + ls)[1..] == ls;
    assert ([b] + bs)[1..] == bs;
  }

  /** One step of `SplitLines` and `Breaks` at the first terminator `e`. */
  lemma SplitStep(s: string, e: nat)
    requires e == LineEnd(s, 0) && e < |s|
    ensures SplitLines(s) == [s[..e]] + SplitLines(s[e + 1..])
    ensures Breaks(s) == [s[e]] + Breaks(s[e + 1..])
  {
    SplitLinesStep(s, e);
    BreaksStep(s, e);
  }

  lemma SplitLinesStep(s: string, e: nat)
    requires e == LineEnd(s, 0) && e < |s|
    ensures SplitLines(s) == [s[..e]] + SplitLines(s[e + 1..])
  {
    assert Split(s) == ([s[..e]] + Split(s[e + 1..]).0, [s[e]] + Split(s[e + 1..]).1);
  }

  lemma BreaksStep(s: string, e: nat)
    requires e == LineEnd(s, 0) && e < |s|
    ensures Breaks(s) == [s[e]] + Breaks(s[e + 1..])
  {
    assert Split(s) == ([s[..e]] + Split(s[e + 1..]).0, [s[e]] + Split(s[e + 1..]).1);
  }

  /** Splitting and joining again gives back the text. */
  lemma {:induction false} JoinLines(s: string)
    decreases |s|
    ensures Join(SplitLines(s), Breaks(s)) == s
  {
    var e := LineEnd(s, 0);
    if e < |s| {
      var t := s[e + 1..];
      var ls, bs := SplitLines(s), Breaks(s);
      SplitStep(s, e);
      assert ls[0] == s[..e] && ls[1..] == SplitLines(t);
      assert bs[0] == s[e] && bs[1..] == Breaks(t);
      JoinLines(t);
      JoinStep(ls, bs);
      assert s == s[..e] + [s[e]] + t;
    }
  }

  /** The first line ends where the first terminator is. */
  lemma LineEndOfJoin(l: string, b: char, rest: string)
    requires SingleLine(l) && IsLineTerminator(b)
    ensures LineEnd(l + [b] + rest, 0) == |l|
  {
    var s := l + [b] + rest;
    forall i | 0 <= i <= |l|
      ensures LineEnd(s, i) == |l|
    {
      LineEndFrom(s, i, |l|);
    }
  }

  lemma {:induction false} LineEndFrom(s: string, i: nat, e: nat)
    requires i <= e < |s|
    requires forall k :: i <= k < e ==> !IsLineTerminator(s[k])
    requires IsLineTerminator(s[e])
    decreases e - i
    ensures LineEnd(s, i) == e
  {
    if i < e {
      LineEndFrom(s, i + 1, e);
    }
  }

  /** A single-line text runs to its end. */
  lemma {:induction false} LineEndSingle(s: string, i: nat)
    requires i <= |s| && SingleLine(s)
    decreases |s| - i
    ensures LineEnd(s, i) == |s|
  {
    if i < |s| {
      LineEndSingle(s, i + 1);
    }
  }

  /** Joining single-line pieces and splitting again gives back the pieces and terminators. */
  lemma {:induction false} LinesOfJoin(ls: seq<string>, bs: string)
    requires |ls| == |bs| + 1
    requires forall k :: 0 <= k < |ls| ==> SingleLine(ls[k])
    requires forall k :: 0 <= k < |bs| ==> IsLineTerminator(bs[k])
    decreases |bs|
    ensures SplitLines(Join(ls, bs)) == ls
    ensures Breaks(Join(ls, bs)) == bs
  {
    var s := Join(ls, bs);
    if |bs| == 0 {
      LineEndSingle(ls[0], 0);
    } else {
      var rest := Join(ls[1..], bs[1..]);
      var e := |ls[0]|;
      JoinStep(ls, bs);
      LineEndOfJoin(ls[0], bs[0], rest);
      assert s[..e] == ls[0] && s[e] == bs[0] && s[e + 1..] == rest;
      SplitStep(s, e);
      LinesOfJoin(ls[1..], bs[1..]);
      assert ls == [ls[0]] + ls[1..];
      assert bs == [bs[0]] + bs[1..];
    }
  }
}

=== FILE: loader.dfy ===
/**
 The two content loaders. The fetch itself is left out: a loader sees only
 how the request ended, and every ending yields markup for the page.
 Line numbers refer to `js/main-script.js`.
 */
module Loader {
  import opened Markdown
  import opened ParseFacts

  /**
   How fetching a content file ended: a response with `ok` set and its body
   text, a response without `ok`, or a thrown error (network failure, or a
   failure reading the body).
   */
  datatype FetchOutcome = Ok(text: string) | NotOk | Failed

  const ArticleMessage: string := "Article content could not be loaded."
  const ProjectMessage: string := "Project documentation could not be loaded."

  /** Lines 92-101: the converted body, or the article fallback paragraph. */
  function LoadArticleContent(outcome: FetchOutcome): (r: string)
    ensures outcome.Ok? ==> r == ParseMarkdown(outcome.text)
    ensures !outcome.Ok? ==> r == "<p>" + ArticleMessage + "</p>"
  {
    match outcome
    case Ok(text) => ParseMarkdown(text)
    case NotOk => "<p>" + ArticleMessage + "</p>"
    case Failed => "<p>" + ArticleMessage + "</p>"
  }

  /** Lines 103-112: the converted body, or the project fallback paragraph. */
  function LoadProjectContent(outcome: FetchOutcome): (r: string)
    ensures outcome.Ok? ==> r == ParseMarkdown(outcome.text)
    ensures !outcome.Ok? ==> r == "<p>" + ProjectMessage + "</p>"
  {
    match outcome
    case Ok(text) => ParseMarkdown(text)
    case NotOk => "<p>" + ProjectMessage + "</p>"
    case Failed => "<p>" + ProjectMessage + "</p>"
  }

  /** Letters, spaces and full stops: characters no rule of the converter reacts to. */
  predicate ProseChar(c: char) {
    c == ' ' || c == '.' || 'a' <= c <= 'z' || 'A' <= c <= 'Z'
  }

  /** Every character is a prose character. */
  predicate Prose(m: string) {
    forall i :: 0 <= i < |m| ==> ProseChar(m[i])
  }

  /** Text made of prose characters only, starting with a letter, is inert and unmarked. */
  lemma ProseInert(m: string)
    requires |m| > 0 && 'A' <= m[0] <= 'Z' && Prose(m)
    ensures Inert(m) && Unmarked(m)
  {
  }

  lemma ArticleMessageProse()
    ensures Prose(ArticleMessage)
  {
  }

  lemma ProjectMessageProse()
    ensures Prose(ProjectMessage)
  {
  }

  lemma ArticleMessageInert()
    ensures Inert(ArticleMessage) && Unmarked(ArticleMessage)
  {
    ArticleMessageProse();
    ProseInert(ArticleMessage);
  }

  lemma ProjectMessageInert()
    ensures Inert(ProjectMessage) && Unmarked(ProjectMessage)
  {
    ProjectMessageProse();
    ProseInert(ProjectMessage);
  }

  /**
   Whatever happens to the request, the page receives exactly what the
   converter makes of some text: a fallback is the conversion of its message.
   */
  lemma ArticleContentIsConverted(outcome: FetchOutcome)
    ensures LoadArticleContent(outcome) == ParseMarkdown(if outcome.Ok? then outcome.text else ArticleMessage)
  {
    if !outcome.Ok? {
      ArticleMessageInert();
      PlainLine(ArticleMessage);
    }
  }

  lemma ProjectContentIsConverted(outcome: FetchOutcome)
    ensures LoadProjectContent(outcome) == ParseMarkdown(if outcome.Ok? then outcome.text else ProjectMessage)
  {
    if !outcome.Ok? {
      ProjectMessageInert();
      PlainLine(ProjectMessage);
    }
  }

  /**
   The page cannot tell a failed request from a refused one, and the two
   loaders differ only in their fallback.
   */
  lemma LoadersAgreeOnSuccess(text: string)
    ensures LoadArticleContent(NotOk) == LoadArticleContent(Failed)
    ensures LoadProjectContent(NotOk) == LoadProjectContent(Failed)
    ensures LoadArticleContent(Ok(text)) == LoadProjectContent(Ok(text))
    ensures LoadArticleContent(NotOk) != LoadProjectContent(NotOk)
  {
    assert LoadArticleContent(NotOk)[3] == ArticleMessage[0];
    assert LoadProjectContent(NotOk)[3] == ProjectMessage[0];
  }
}

=== FILE: markdown.dfy ===
/**
 The converter `parseMarkdown`: twelve regular-expression substitutions
 applied in a fixed order, each to the output of the one before.
 Line numbers refer to `js/main-script.js`.
 */
module Markdown {
  import opened Text
  import opened Lines
  import opened Inline

  // ---------------------------------------------------------------------------
  // Line-anchored rules
  // ---------------------------------------------------------------------------

  /**
   A rule applied to every line on its own. `Prefixed(m, o, c)` is
   `/^m(.*$)/gm` with replacement `o + "$1" + c`; `Paragraph` is
   `/^(?!<[h|u|p|b])(.*)$/gm` with replacement `"<p>$1</p>"`.
   */
  datatype LineRule =
    | Prefixed(marker: string, open: string, close: string)
    | Paragraph

  /**
   The negative look-ahead of the paragraph rule: `<` followed by a member of
   the class `[h|u|p|b]`, in which `|` is itself a member.
   */
  predicate ParagraphExempt(line: string) {
    |line| >= 2 && line[0] == '<' && line[1] in {'h', '|', 'u', 'p', 'b'}
  }

  function ApplyToLine(rule: LineRule, line: string): string {
    match rule
    case Prefixed(m, o, c) => if m <= line then o + line[|m|..] + c else line
    case Paragraph => if ParagraphExempt(line) then line else "<p>" + line + "</p>"
  }

  /** The rule's own text never contains a line terminator. */
  predicate TagsSingleLine(rule: LineRule) {
    rule.Prefixed? ==> SingleLine(rule.marker) && SingleLine(rule.open) && SingleLine(rule.close)
  }

  /** The rule applied line by line; terminators are kept where they are. */
  function MapLines(s: string, rule: LineRule): string
    decreases |s|
  {
    var e := LineEnd(s, 0);
    if e == |s| then ApplyToLine(rule, s)
    else ApplyToLine(rule, s[..e]) + [s[e]] + MapLines(s[e + 1..], rule)
  }

  /** The rule applied to each line of a list. */
  function MapEach(rule: LineRule, ls: seq<string>): seq<string> {
    seq(|ls|, k requires 0 <= k < |ls| => ApplyToLine(rule, ls[k]))
  }

  lemma ApplyToLineSingle(rule: LineRule, line: string)
    requires TagsSingleLine(rule) && SingleLine(line)
    ensures SingleLine(ApplyToLine(rule, line))
  {
    match rule
    case Prefixed(m, o, c) =>
      if m <= line {
        var r := o + line[|m|..] + c;
        forall i | 0 <= i < |r|
          ensures !IsLineTerminator(r[i])
        {
          if i < |o| {
            assert r[i] == o[i];
          } else if i < |o| + |line| - |m| {
            assert r[i] == line[i - |o| + |m|];
          } else {
            assert r[i] == c[i - |o| - |line| + |m|];
          }
        }
      }
    case Paragraph =>
      if !ParagraphExempt(line) {
        var r := "<p>" + line + "</p>";
        forall i | 0 <= i < |r|
          ensures !IsLineTerminator(r[i])
        {
          if 3 <= i < 3 + |line| {
            assert r[i] == line[i - 3];
          }
        }
      }
  }

  lemma MapLinesOneLine(s: string, rule: LineRule)
    requires SingleLine(s)
    ensures MapLines(s, rule) == ApplyToLine(rule, s)
  {
    LineEndSingle(s, 0);
  }

  lemma MapLinesStep(l: string, t: char, rest: string, rule: LineRule)
    requires SingleLine(l) && IsLineTerminator(t)
    ensures MapLines(l + [t] + rest, rule) == ApplyToLine(rule, l) + [t] + MapLines(rest, rule)
  {
    var s := l + [t] + rest;
    LineEndOfJoin(l, t, rest);
    assert s[..|l|] == l;
    assert s[|l| + 1..] == rest;
  }

  /** The rule applied to a list with a first line. */
  lemma MapEachCons(rule: LineRule, l: string, ls: seq<string>)
    ensures MapEach(rule, [l] + ls) == [ApplyToLine(rule, l)] + MapEach(rule, ls)
  {
    assert forall k :: 1 <= k < |ls| + 1 ==> ([l] + ls)[k] == ls[k - 1];
  }

  /** A line rule is split into lines, a map over them, and a join. */
  lemma {:induction false} MapLinesIsSplitMapJoin(s: string, rule: LineRule)
    decreases |s|
    ensures MapLines(s, rule) == Join(MapEach(rule, SplitLines(s)), Breaks(s))
  {
    var e := LineEnd(s, 0);
    if e < |s| {
      var l, t := s[..e], s[e + 1..];
      calc {
        Join(MapEach(rule, SplitLines(s)), Breaks(s));
        == { SplitStep(s, e); }
        Join(MapEach(rule, [l] + SplitLines(t)), [s[e]] + Breaks(t));
        == { MapEachCons(rule, l, SplitLines(t)); }
        Join([ApplyToLine(rule, l)] + MapEach(rule, SplitLines(t)), [s[e]] + Breaks(t));
        == { JoinCons(ApplyToLine(rule, l), MapEach(rule, SplitLines(t)), s[e], Breaks(t)); }
        ApplyToLine(rule, l) + [s[e]] + Join(MapEach(rule, SplitLines(t)), Breaks(t));
        == { MapLinesIsSplitMapJoin(t, rule); }
        ApplyToLine(rule, l) + [s[e]] + MapLines(t, rule);
      }
    } else {
      assert SplitLines(s) == [s] && Breaks(s) == [];
    }
  }

  /**
   A line rule keeps the line structure: the result has the input's
   terminators, and its `k`-th line is the rule applied to the input's `k`-th line.
   */
  lemma LineRulePerLine(s: string, rule: LineRule)
    requires TagsSingleLine(rule)
    ensures SplitLines(MapLines(s, rule)) == MapEach(rule, SplitLines(s))
    ensures Breaks(MapLines(s, rule)) == Breaks(s)
  {
    MapLinesIsSplitMapJoin(s, rule);
    var ls := SplitLines(s);
    forall k | 0 <= k < |ls|
      ensures SingleLine(MapEach(rule, ls)[k])
    {
      ApplyToLineSingle(rule, ls[k]);
    }
    LinesOfJoin(MapEach(rule, ls), Breaks(s));
  }

  // ---------------------------------------------------------------------------
  // The twelve steps, in source order
  // ---------------------------------------------------------------------------

  /** Line 77: `/^# (.*$)/gm`. */
  function Heading2(s: string): string {
    MapLines(s, Prefixed("# ", "<h2>", "</h2>"))
  }

  /** Line 78: `/^## (.*$)/gm`. */
  function Heading3(s: string): string {
    MapLines(s, Prefixed("## ", "<h3>", "</h3>"))
  }

  // Line 79: `/\*\*(.*?)\*\*/g`.
  function Bold(s: string): string {
    ReplaceDelimited(s, "**", "<strong>", "</strong>", false)
  }

  // Line 80: `/\*(.*?)\*/g`.
  function Italic(s: string): string {
    ReplaceDelimited(s, "*", "<em>", "</em>", false)
  }

  /** Line 81: a backtick, the shortest run on the same line, a backtick. */
  function InlineCode(s: string): string {
    ReplaceDelimited(s, "`", "<code>", "</code>", false)
  }

  /** Line 82: three backticks, the shortest run across any lines, three backticks. */
  function FencedCode(s: string): string {
    ReplaceDelimited(s, "```", "<pre><code>", "</code></pre>", true)
  }

  /** Line 83: `/^\> (.*$)/gm`. */
  function Blockquotes(s: string): string {
    MapLines(s, Prefixed("> ", "<blockquote>", "</blockquote>"))
  }

  /** Line 84: `/^\- (.*$)/gm`. */
  function ListItems(s: string): string {
    MapLines(s, Prefixed("- ", "<li>", "</li>"))
  }

  /** A candidate match of `/(<li>.*<\/li>)/s`: `<li>` at `i`, `</li>` at `j`, not overlapping. */
  predicate ListSpan(s: string, i: int, j: int) {
    OccursAt(s, "<li>", i) && OccursAt(s, "</li>", j) && i + 4 <= j
  }

  /**
   Line 85: `/(<li>.*<\/li>)/s`, without the `g` flag. One match at most: the
   leftmost `<li>`, and the greedy `.*` reaches the last `</li>` after it.
   The whole span is wrapped in one `<ul>`, however many lists it crosses.
   */
  function WrapList(s: string): (r: string)
    ensures r != s <==> exists i, j :: ListSpan(s, i, j)
    ensures r != s ==> |r| == |s| + 9
    ensures r != s ==> exists f, l ::
              && ListSpan(s, f, l)
              && (forall i, j :: ListSpan(s, i, j) ==> f <= i && j <= l)
              && r == s[..f] + "<ul>" + s[f..l + 5] + "</ul>" + s[l + 5..]
  {
    match FirstIndex(s, "<li>")
    case None =>
      ListSpanBounds(s);
      s
    case Some(f) =>
      match LastIndex(s, "</li>")
      case None =>
        ListSpanBounds(s);
        s
      case Some(l) =>
        ListSpanBounds(s);
        if f + 4 <= l then
          assert ListSpan(s, f, l);
          WrapSpan(s, f, l)
        else s
  }

  /** The span from `<li>` at `f` to the `</li>` at `l` inside `<ul>` and `</ul>`. */
  function WrapSpan(s: string, f: int, l: int): (r: string)
    requires ListSpan(s, f, l)
    ensures |r| == |s| + 9
  {
    s[..f] + "<ul>" + s[f..l + 5] + "</ul>" + s[l + 5..]
  }

  /** Every candidate span lies between the first `<li>` and the last `</li>`. */
  lemma ListSpanBounds(s: string)
    ensures forall i, j :: ListSpan(s, i, j) ==>
              && FirstIndex(s, "<li>").Some? && FirstIndex(s, "<li>").value <= i
              && LastIndex(s, "</li>").Some? && j <= LastIndex(s, "</li>").value
  {
    forall i, j | ListSpan(s, i, j)
      ensures FirstIndex(s, "<li>").Some? && FirstIndex(s, "<li>").value <= i
      ensures LastIndex(s, "</li>").Some? && j <= LastIndex(s, "</li>").value
    {
      assert Occurs(s, "<li>") && Occurs(s, "</li>");
    }
  }

  /** No two line feeds in a row. */
  predicate NoDoubleNewline(s: string) {
    forall i :: 0 <= i < |s| - 1 ==> !(s[i] == '\n' && s[i + 1] == '\n')
  }

  /** Line 86: `/\n\n/g`, replaced by `</p><p>`. */
  function ParagraphBreaks(s: string): (r: string)
    ensures NoDoubleNewline(r)
  {
    ParagraphBreaksLeaveNoDouble(s);
    ReplaceAll(s, "\n\n", "</p><p>")
  }

  /** Line 87: every line not exempt by its first two characters becomes `<p>line</p>`. */
  function WrapParagraphs(s: string): string {
    MapLines(s, Paragraph)
  }

  /** Line 87 keeps the terminators, and every line it leaves starts with an exempt tag. */
  lemma WrapParagraphsExempt(s: string)
    ensures Breaks(WrapParagraphs(s)) == Breaks(s)
    ensures forall k :: 0 <= k < |SplitLines(WrapParagraphs(s))| ==> ParagraphExempt(SplitLines(WrapParagraphs(s))[k])
  {
    LineRulePerLine(s, Paragraph);
    var ls := SplitLines(s);
    forall k | 0 <= k < |ls|
      ensures ParagraphExempt(MapEach(Paragraph, ls)[k])
    {
      ParagraphLineExempt(ls[k]);
    }
  }

  /** Every line leaves line 87 starting with an exempt tag: its own, or the `<p>` it gets. */
  lemma ParagraphLineExempt(line: string)
    ensures ParagraphExempt(ApplyToLine(Paragraph, line))
  {
    if !ParagraphExempt(line) {
      assert ("<p>" + line + "</p>")[..2] == "<p";
    }
  }

  /** Line 87 applied twice is line 87 applied once: every line it leaves is exempt. */
  lemma WrapParagraphsIdempotent(s: string)
    ensures WrapParagraphs(WrapParagraphs(s)) == WrapParagraphs(s)
  {
    var r := WrapParagraphs(s);
    var ls := SplitLines(r);
    WrapParagraphsExempt(s);
    MapLinesIsSplitMapJoin(r, Paragraph);
    assert MapEach(Paragraph, ls) == ls;
    JoinLines(r);
  }

  /** Line 88: `/<p><\/p>/g`, replaced by nothing, in one left-to-right pass. */
  function RemoveEmptyParagraphs(s: string): (r: string)
    ensures r == s <==> !Occurs(s, "<p></p>")
    ensures |r| == |s| - 7 * MatchCount(s, "<p></p>")
  {
    ReplaceAllUnchangedIff(s, "<p></p>", "");
    ReplaceAllLength(s, "<p></p>", "");
    ReplaceAll(s, "<p></p>", "")
  }

  /** Lines 77-78. */
  function HeadingRules(s: string): string {
    Heading3(Heading2(s))
  }

  /** Lines 79-82. */
  function InlineRules(s: string): string {
    FencedCode(InlineCode(Italic(Bold(s))))
  }

  /** Lines 83-85. */
  function BlockRules(s: string): string {
    WrapList(ListItems(Blockquotes(s)))
  }

  /** Lines 86-88. */
  function ParagraphRules(s: string): string {
    RemoveEmptyParagraphs(WrapParagraphs(ParagraphBreaks(s)))
  }

  /** `parseMarkdown`: the twelve steps in source order, grouped as above. */
  function ParseMarkdown(content: string): string {
    ParagraphRules(BlockRules(InlineRules(HeadingRules(content))))
  }

  // ---------------------------------------------------------------------------
  // Paragraph breaks
  // ---------------------------------------------------------------------------

  lemma NoDoubleNewlineAfter(a: string, b: string)
    requires Lacks(a, '\n') && NoDoubleNewline(b)
    ensures NoDoubleNewline(a + b)
  {
    var s := a + b;
    forall i | 0 <= i < |s| - 1
      ensures !(s[i] == '\n' && s[i + 1] == '\n')
    {
      if i < |a| {
        assert s[i] == a[i];
      } else {
        assert s[i] == b[i - |a|] && s[i + 1] == b[i + 1 - |a|];
      }
    }
  }

  /** After line 86 no two line feeds are adjacent: a run of three leaves one. */
  lemma {:induction false} ParagraphBreaksLeaveNoDouble(s: string)
    decreases |s|
    ensures NoDoubleNewline(ReplaceAll(s, "\n\n", "</p><p>"))
  {
    var r := ReplaceAll(s, "\n\n", "</p><p>");
    if "\n\n" <= s {
      ParagraphBreaksLeaveNoDouble(s[2..]);
      NoDoubleNewlineAfter("</p><p>", ReplaceAll(s[2..], "\n\n", "</p><p>"));
    } else if |s| > 0 {
      var t := ReplaceAll(s[1..], "\n\n", "</p><p>");
      ParagraphBreaksLeaveNoDouble(s[1..]);
      assert r == [s[0]] + t;
      if s[0] != '\n' {
        NoDoubleNewlineAfter([s[0]], t);
      } else if |s| > 1 {
        assert s[1] != '\n' by {
          assert s[..2] != "\n\n";
        }
        assert !("\n\n" <= s[1..]);
        assert t[0] == s[1];
        forall i | 0 <= i < |r| - 1
          ensures !(r[i] == '\n' && r[i + 1] == '\n')
        {
          if i > 0 {
            assert r[i] == t[i - 1] && r[i + 1] == t[i];
          }
        }
      }
    }
  }

  // ---------------------------------------------------------------------------
  // Backticks: after line 81, line 82 has nothing to match
  // ---------------------------------------------------------------------------

  /** No backtick before the first line terminator. */
  predicate FirstLineLacksTick(s: string)
    decreases |s|
  {
    |s| == 0 || IsLineTerminator(s[0]) || (s[0] != '`' && FirstLineLacksTick(s[1..]))
  }

  /** Every backtick is the last one on its line. */
  predicate OneTickPerLine(s: string)
    decreases |s|
  {
    |s| == 0 || ((s[0] == '`' ==> FirstLineLacksTick(s[1..])) && OneTickPerLine(s[1..]))
  }

  /** What the lazy search reports when no closing backtick is on the line. */
  lemma {:induction false} NoCloseMeansClearLine(s: string, i: nat)
    requires i <= |s|
    requires forall j :: i <= j <= |s| && OccursAt(s, "`", j) ==> !SingleLine(s[i..j])
    decreases |s| - i
    ensures FirstLineLacksTick(s[i..])
  {
    if i < |s| && !IsLineTerminator(s[i]) {
      assert s[i] != '`' by {
        assert s[i..i] == [];
        if s[i] == '`' {
          assert OccursAt(s, "`", i);
        }
      }
      forall j | i + 1 <= j <= |s| && OccursAt(s, "`", j)
        ensures !SingleLine(s[i + 1..j])
      {
        assert !SingleLine(s[i..j]);
        var k :| 0 <= k < j - i && IsLineTerminator(s[i..j][k]);
        assert k != 0;
        assert s[i + 1..j][k - 1] == s[i..j][k];
      }
      NoCloseMeansClearLine(s, i + 1);
      assert s[i..][1..] == s[i + 1..];
    }
  }

  /** Line 81 keeps a first line that has no backtick free of backticks. */
  lemma {:induction false} CodeKeepsClearLine(s: string)
    requires FirstLineLacksTick(s)
    decreases |s|
    ensures FirstLineLacksTick(InlineCode(s))
  {
    if |s| > 0 {
      assert !("`" <= s);
      DelimitedSkipStep(s, "`", "<code>", "</code>", false);
      if !IsLineTerminator(s[0]) {
        CodeKeepsClearLine(s[1..]);
      }
    }
  }

  lemma {:induction false} OneTickAfterTickless(x: string, y: string)
    requires Lacks(x, '`') && OneTickPerLine(y)
    decreases |x|
    ensures OneTickPerLine(x + y)
  {
    if |x| > 0 {
      assert (x + y)[0] == x[0];
      assert (x + y)[1..] == x[1..] + y;
      OneTickAfterTickless(x[1..], y);
    } else {
      assert x + y == y;
    }
  }

  /** A code run made by line 81 holds no backtick. */
  lemma CodeRunLacksTick(s: string, k: nat)
    requires "`" <= s && CloseFrom(s, "`", false, 1) == Some(k)
    ensures Lacks("<code>" + s[1..k] + "</code>", '`')
  {
    var x := "<code>" + s[1..k] + "</code>";
    forall i | 0 <= i < |x|
      ensures x[i] != '`'
    {
      if 6 <= i < 6 + k - 1 {
        assert x[i] == s[i - 5];
        assert !OccursAt(s, "`", i - 5);
      }
    }
  }

  /** Where line 81 keeps the first character, one backtick per line carries over from the rest. */
  lemma CodeSkipKeepsOneTick(s: string)
    requires |s| > 0 && !("`" <= s && CloseFrom(s, "`", false, 1).Some?)
    requires OneTickPerLine(InlineCode(s[1..]))
    ensures OneTickPerLine(InlineCode(s))
  {
    DelimitedSkipStep(s, "`", "<code>", "</code>", false);
    var r := InlineCode(s);
    assert r[0] == s[0] && r[1..] == InlineCode(s[1..]);
    if s[0] == '`' {
      NoCloseMeansClearLine(s, 1);
      CodeKeepsClearLine(s[1..]);
    }
  }

  /** After line 81 no line holds two backticks. */
  lemma {:induction false} CodeLeavesOneTickPerLine(s: string)
    decreases |s|
    ensures OneTickPerLine(InlineCode(s))
  {
    if |s| > 0 {
      if "`" <= s && CloseFrom(s, "`", false, 1).Some? {
        var k := CloseFrom(s, "`", false, 1).value;
        DelimitedMatchStep(s, "`", "<code>", "</code>", false, k);
        CodeRunLacksTick(s, k);
        CodeLeavesOneTickPerLine(s[k + 1..]);
        OneTickAfterTickless("<code>" + s[1..k] + "</code>", InlineCode(s[k + 1..]));
      } else {
        CodeLeavesOneTickPerLine(s[1..]);
        CodeSkipKeepsOneTick(s);
      }
    }
  }

  /** Line 82 needs three adjacent backticks, which such a text never has. */
  lemma {:induction false} FenceIdle(s: string)
    requires OneTickPerLine(s)
    decreases |s|
    ensures FencedCode(s) == s
  {
    if |s| > 0 {
      assert s[0] == '`' && |s| > 1 ==> s[1..][0] != '`';
      assert !("```" <= s);
      DelimitedSkipStep(s, "```", "<pre><code>", "</code></pre>", true);
      FenceIdle(s[1..]);
    }
  }

  /** Line 81 runs first, so the fenced-block rule of line 82 never replaces anything. */
  lemma FencedNeverFires(s: string)
    ensures FencedCode(InlineCode(s)) == InlineCode(s)
  {
    CodeLeavesOneTickPerLine(s);
    FenceIdle(InlineCode(s));
  }
}

=== FILE: parse_facts.dfy ===
/**
 What `parseMarkdown` does to whole inputs of a few shapes: headings, plain
 paragraphs, quotes, bullet lists, emphasis, and the empty text. Each fact
 follows the twelve steps one by one. Line numbers refer to
 `js/main-script.js`.
 */
module ParseFacts {
  import opened Text
  import opened Lines
  import opened Inline
  import opened Markdown

  /** Text that no rule rewrites: one line, and no `*`, backtick or `<`. */
  predicate Inert(x: string) {
    SingleLine(x) && Lacks(x, '*') && Lacks(x, '`') && Lacks(x, '<')
  }

  /** A line opened by none of the markers `# `, `## `, `> ` and `- `. */
  predicate Unmarked(x: string) {
    !("# " <= x) && !("## " <= x) && !("> " <= x) && !("- " <= x)
  }

  // ---------------------------------------------------------------------------
  // Helpers
  // ---------------------------------------------------------------------------

  lemma LacksJoin(a: string, b: string, c: char)
    requires Lacks(a, c) && Lacks(b, c)
    ensures Lacks(a + b, c)
  {
    forall i | 0 <= i < |a + b|
      ensures (a + b)[i] != c
    {
      if i >= |a| {
        assert (a + b)[i] == b[i - |a|];
      }
    }
  }

  lemma SingleLineJoin(a: string, b: string)
    requires SingleLine(a) && SingleLine(b)
    ensures SingleLine(a + b)
  {
    forall i | 0 <= i < |a + b|
      ensures !IsLineTerminator((a + b)[i])
    {
      if i >= |a| {
        assert (a + b)[i] == b[i - |a|];
      }
    }
  }

  lemma SingleLineLacksFeed(s: string)
    requires SingleLine(s)
    ensures Lacks(s, '\n')
  {
  }

  /** A tag, free text, a tag: clear for `pat` when both tags are and the text lacks its first character. */
  lemma TaggedClear(o: string, x: string, c: string, pat: string)
    requires |pat| > 0 && ClearFrom(o, pat, 0) && ClearFrom(c, pat, 0) && Lacks(x, pat[0])
    ensures ClearFrom(o + x + c, pat, 0)
  {
    LacksFirstIsClear(x, pat, 0);
    ClearConcat(o, x, pat);
    ClearConcat(o + x, c, pat);
  }

  /** A clear head followed by text without `pat`'s first character is clear. */
  lemma HeadClear(a: string, b: string, pat: string)
    requires |pat| > 0 && ClearFrom(a, pat, 0) && Lacks(b, pat[0])
    ensures ClearFrom(a + b, pat, 0)
  {
    LacksFirstIsClear(b, pat, 0);
    ClearConcat(a, b, pat);
  }

  /** The blockquote tags hold neither `<li>` nor `<p></p>`. */
  lemma QuoteTagsClear()
    ensures ClearFrom("<blockquote>", "<li>", 0) && ClearFrom("</blockquote>", "<li>", 0)
    ensures ClearFrom("<blockquote>", "<p></p>", 0) && ClearFrom("</blockquote>", "<p></p>", 0)
  {
    assert "<blockquote>" == "<b" + "lockquote>";
    assert "</blockquote>" == "</" + "blockquote>";
    HeadClear("<b", "lockquote>", "<li>");
    HeadClear("</", "blockquote>", "<li>");
    HeadClear("<b", "lockquote>", "<p></p>");
    HeadClear("</", "blockquote>", "<p></p>");
  }

  lemma TaggedLacks(o: string, x: string, c: string, ch: char)
    requires Lacks(o, ch) && Lacks(x, ch) && Lacks(c, ch)
    ensures Lacks(o + x + c, ch)
  {
    LacksJoin(o, x, ch);
    LacksJoin(o + x, c, ch);
  }

  lemma TaggedSingleLine(o: string, x: string, c: string)
    requires SingleLine(o) && SingleLine(x) && SingleLine(c)
    ensures SingleLine(o + x + c)
  {
    SingleLineJoin(o, x);
    SingleLineJoin(o + x, c);
  }

  /** `<p>` followed by clear text that does not start with `<` holds no empty paragraph. */
  lemma OpenParagraphClear(b: string)
    requires |b| > 0 && b[0] != '<' && ClearFrom(b, "<p></p>", 0)
    ensures ClearFrom("<p>" + b, "<p></p>", 0)
  {
    var e := "<p></p>";
    var c := "<p>" + b;
    assert c[3] == b[0];
    DiffersByChar(c, e, 0, 3);
    LacksFirstIsClear("p>", e, 0);
    ClearConcat("p>", b, e);
    assert c[1..] == "p>" + b;
    ClearFromSecond(c, e);
  }

  /** `<p>x</p>` holds no empty paragraph when `x` is non-empty and has no `<`. */
  lemma WrappedParagraphClear(x: string)
    requires |x| > 0 && Lacks(x, '<')
    ensures ClearFrom("<p>" + x + "</p>", "<p></p>", 0)
  {
    var e := "<p></p>";
    var b := x + "</p>";
    LacksFirstIsClear(x, e, 0);
    ClearConcat(x, "</p>", e);
    OpenParagraphClear(b);
    assert "<p>" + x + "</p>" == "<p>" + b;
  }

  /** Lines 79-82 leave text without `*` and backticks alone. */
  lemma InlineIdle(s: string)
    requires Lacks(s, '*') && Lacks(s, '`')
    ensures InlineRules(s) == s
  {
    DelimitedAbsent(s, "**", "<strong>", "</strong>", false);
    DelimitedAbsent(s, "*", "<em>", "</em>", false);
    DelimitedAbsent(s, "`", "<code>", "</code>", false);
    DelimitedAbsent(s, "```", "<pre><code>", "</code></pre>", true);
  }

  /** Without `<li>`, line 85 has nothing to wrap. */
  lemma WrapListIdle(s: string)
    requires ClearFrom(s, "<li>", 0)
    ensures WrapList(s) == s
  {
    ClearIsAbsent(s, "<li>", "");
  }

  /** A single line exempt from line 87, without an empty paragraph, passes lines 86-88 unchanged. */
  lemma ParagraphsSettle(t: string)
    requires SingleLine(t) && ParagraphExempt(t) && ClearFrom(t, "<p></p>", 0)
    ensures ParagraphRules(t) == t
  {
    SingleLineLacksFeed(t);
    LacksFirstIsClear(t, "\n\n", 0);
    ClearIsAbsent(t, "\n\n", "</p><p>");
    MapLinesOneLine(t, Paragraph);
    ClearIsAbsent(t, "<p></p>", "");
  }

  /** Markup no rule of lines 79-88 rewrites: one line, no `*` or backtick, no `<li>` and no `<p></p>`. */
  predicate QuietTag(o: string) {
    Plain(o) && ClearFrom(o, "<li>", 0) && ClearFrom(o, "<p></p>", 0)
  }

  /** One line without `*` or backtick: the inline rules of lines 79-82 find nothing in it. */
  predicate Plain(s: string) {
    SingleLine(s) && Lacks(s, '*') && Lacks(s, '`')
  }

  lemma Heading2TagsQuiet()
    ensures QuietTag("<h2>") && QuietTag("</h2>") && ParagraphExempt("<h2>")
  {
  }

  lemma Heading3TagsQuiet()
    ensures QuietTag("<h3>") && QuietTag("</h3>") && ParagraphExempt("<h3>")
  {
  }

  /** A tag, inert text and a closing tag, all plain: lines 79-82 change nothing. */
  lemma TaggedInlineIdle(o: string, x: string, c: string)
    requires Inert(x) && Plain(o) && Plain(c)
    ensures Plain(o + x + c) && InlineRules(o + x + c) == o + x + c
  {
    TaggedLacks(o, x, c, '*');
    TaggedLacks(o, x, c, '`');
    TaggedSingleLine(o, x, c);
    InlineIdle(o + x + c);
  }

  /** A tagged line opened by a tag exempt from line 87 passes lines 86-88 unchanged. */
  lemma TaggedParagraphsSettle(o: string, x: string, c: string)
    requires Inert(x) && ParagraphExempt(o) && QuietTag(o) && QuietTag(c)
    ensures ParagraphRules(o + x + c) == o + x + c
  {
    var t := o + x + c;
    TaggedSingleLine(o, x, c);
    TaggedClear(o, x, c, "<p></p>");
    assert t[..2] == o[..2];
    ParagraphsSettle(t);
  }

  /** A tag, inert text and a closing tag: lines 79-88 change nothing. */
  lemma TaggedLineSettles(o: string, x: string, c: string)
    requires Inert(x) && ParagraphExempt(o) && QuietTag(o) && QuietTag(c)
    ensures ParagraphRules(BlockRules(InlineRules(o + x + c))) == o + x + c
  {
    var t := o + x + c;
    TaggedInlineIdle(o, x, c);
    assert t[0] == '<';
    PrefixedIdle("> ", "<blockquote>", "</blockquote>", t);
    TaggedListIdle(o, x, c);
    TaggedParagraphsSettle(o, x, c);
  }

  // ---------------------------------------------------------------------------
  // Whole-input facts
  // ---------------------------------------------------------------------------

  /** The empty text converts to the empty text: line 87 makes `<p></p>` and line 88 removes it. */
  lemma EmptyInput()
    ensures WrapParagraphs("") == "<p></p>"
    ensures ParseMarkdown("") == ""
  {
    LineEndSingle("", 0);
  }

  lemma Heading2Rules(x: string)
    requires Inert(x)
    ensures HeadingRules("# " + x) == "<h2>" + x + "</h2>"
  {
    var line := "# " + x;
    TaggedSingleLine("# ", x, "");
    assert line + "" == line;
    MapLinesOneLine(line, Prefixed("# ", "<h2>", "</h2>"));
    assert line[2..] == x;
    var h := "<h2>" + x + "</h2>";
    assert Heading2(line) == h;
    TaggedSingleLine("<h2>", x, "</h2>");
    MapLinesOneLine(h, Prefixed("## ", "<h3>", "</h3>"));
    assert h[0] == '<';
  }

  /** `# X` becomes exactly `<h2>X</h2>`, with no paragraph around it. */
  lemma Heading2Line(x: string)
    requires Inert(x)
    ensures ParseMarkdown("# " + x) == "<h2>" + x + "</h2>"
  {
    Heading2Rules(x);
    Heading2TagsQuiet();
    TaggedLineSettles("<h2>", x, "</h2>");
  }

  lemma Heading3Rules(x: string)
    requires Inert(x)
    ensures Heading2("## " + x) == "## " + x
    ensures HeadingRules("## " + x) == "<h3>" + x + "</h3>"
  {
    var line := "## " + x;
    TaggedSingleLine("## ", x, "");
    assert line + "" == line;
    MapLinesOneLine(line, Prefixed("# ", "<h2>", "</h2>"));
    assert line[1] == '#';
    assert Heading2(line) == line;
    MapLinesOneLine(line, Prefixed("## ", "<h3>", "</h3>"));
    assert line[3..] == x;
  }

  /** `## X` becomes exactly `<h3>X</h3>`; the rule of line 77 does not fire on it. */
  lemma Heading3Line(x: string)
    requires Inert(x)
    ensures Heading2("## " + x) == "## " + x
    ensures ParseMarkdown("## " + x) == "<h3>" + x + "</h3>"
  {
    Heading3Rules(x);
    Heading3TagsQuiet();
    TaggedLineSettles("<h3>", x, "</h3>");
  }

  lemma QuoteEarlyRules(x: string)
    requires Inert(x)
    ensures InlineRules(HeadingRules("> " + x)) == "> " + x
  {
    var line := "> " + x;
    TaggedSingleLine("> ", x, "");
    assert line + "" == line;
    TaggedLacks("> ", x, "", '*');
    TaggedLacks("> ", x, "", '`');
    assert line[0] == '>';
    MapLinesOneLine(line, Prefixed("# ", "<h2>", "</h2>"));
    MapLinesOneLine(line, Prefixed("## ", "<h3>", "</h3>"));
    assert HeadingRules(line) == line;
    InlineIdle(line);
  }

  /** A single line that starts with the marker is rewritten to the rule's tags around the rest. */
  lemma PrefixedFires(m: string, o: string, c: string, x: string)
    requires SingleLine(m) && SingleLine(x)
    ensures MapLines(m + x, Prefixed(m, o, c)) == o + x + c
  {
    SingleLineJoin(m, x);
    MapLinesOneLine(m + x, Prefixed(m, o, c));
    assert (m + x)[|m|..] == x;
  }

  /** A single line that does not start with the marker is left as it is. */
  lemma PrefixedIdle(m: string, o: string, c: string, t: string)
    requires SingleLine(t) && !(m <= t)
    ensures MapLines(t, Prefixed(m, o, c)) == t
  {
    MapLinesOneLine(t, Prefixed(m, o, c));
  }

  /** A tagged line opened by `<` and free of `<li>` passes lines 84-85 unchanged. */
  lemma TaggedListIdle(o: string, x: string, c: string)
    requires Inert(x) && |o| > 0 && o[0] == '<' && QuietTag(o) && QuietTag(c)
    ensures WrapList(ListItems(o + x + c)) == o + x + c
  {
    var t := o + x + c;
    TaggedSingleLine(o, x, c);
    assert t[0] == '<';
    PrefixedIdle("- ", "<li>", "</li>", t);
    TaggedClear(o, x, c, "<li>");
    WrapListIdle(t);
  }

  lemma QuoteOpenPlain()
    ensures Plain("<blockquote>")
  {
  }

  lemma QuoteClosePlain()
    ensures Plain("</blockquote>")
  {
  }

  lemma QuoteTagsQuiet()
    ensures QuietTag("<blockquote>") && QuietTag("</blockquote>")
  {
    QuoteOpenPlain();
    QuoteClosePlain();
    QuoteTagsClear();
  }

  lemma QuoteBlockRules(x: string)
    requires Inert(x)
    ensures BlockRules("> " + x) == "<blockquote>" + x + "</blockquote>"
  {
    PrefixedFires("> ", "<blockquote>", "</blockquote>", x);
    QuoteTagsQuiet();
    TaggedListIdle("<blockquote>", x, "</blockquote>");
  }

  lemma QuoteParagraphRules(x: string)
    requires Inert(x)
    ensures ParagraphRules("<blockquote>" + x + "</blockquote>") == "<blockquote>" + x + "</blockquote>"
  {
    QuoteTagsQuiet();
    assert ParagraphExempt("<blockquote>");
    TaggedParagraphsSettle("<blockquote>", x, "</blockquote>");
  }

  /** `> X` becomes `<blockquote>X</blockquote>`: `b` is in the class of line 87, so no paragraph is added. */
  lemma BlockquoteLine(x: string)
    requires Inert(x)
    ensures ParseMarkdown("> " + x) == "<blockquote>" + x + "</blockquote>"
  {
    var line := "> " + x;
    var q := "<blockquote>" + x + "</blockquote>";
    QuoteEarlyRules(x);
    QuoteBlockRules(x);
    assert BlockRules(InlineRules(HeadingRules(line))) == q;
    QuoteParagraphRules(x);
  }

  /** A non-empty unmarked inert line becomes one paragraph. */
  lemma PlainLine(x: string)
    requires Inert(x) && Unmarked(x) && |x| > 0
    ensures ParseMarkdown(x) == "<p>" + x + "</p>"
  {
    MapLinesOneLine(x, Prefixed("# ", "<h2>", "</h2>"));
    MapLinesOneLine(x, Prefixed("## ", "<h3>", "</h3>"));
    InlineIdle(x);
    MapLinesOneLine(x, Prefixed("> ", "<blockquote>", "</blockquote>"));
    MapLinesOneLine(x, Prefixed("- ", "<li>", "</li>"));
    LacksFirstIsClear(x, "<li>", 0);
    WrapListIdle(x);
    SingleLineLacksFeed(x);
    LacksFirstIsClear(x, "\n\n", 0);
    ClearIsAbsent(x, "\n\n", "</p><p>");
    MapLinesOneLine(x, Paragraph);
    WrappedParagraphClear(x);
    ClearIsAbsent("<p>" + x + "</p>", "<p></p>", "");
  }

  // ---------------------------------------------------------------------------
  // Bullet lists
  // ---------------------------------------------------------------------------

  /** A line rule whose marker opens neither of two lines leaves both alone. */
  lemma TwoLinesIdle(a: string, b: string, rule: LineRule)
    requires rule.Prefixed? && SingleLine(a) && SingleLine(b)
    requires !(rule.marker <= a) && !(rule.marker <= b)
    ensures MapLines(a + "\n" + b, rule) == a + "\n" + b
  {
    MapLinesStep(a, '\n', b, rule);
    MapLinesOneLine(b, rule);
  }

  /**
   Line 85 on text that opens with `<li>` and closes with `</li>`: the whole
   text is the match, so it is wrapped in one `<ul>`.
   */
  lemma WrapListWholeSpan(s: string)
    requires |s| >= 9 && "<li>" <= s && s[|s| - 5..] == "</li>"
    ensures WrapList(s) == "<ul>" + s + "</ul>"
  {
    var last := |s| - 5;
    assert s[0..] == s;
    assert ListSpan(s, 0, last);
    var r := WrapList(s);
    var f, l :| && ListSpan(s, f, l)
                && (forall i, j :: ListSpan(s, i, j) ==> f <= i && j <= l)
                && r == s[..f] + "<ul>" + s[f..l + 5] + "</ul>" + s[l + 5..];
    assert f == 0 && l == last;
    WholeSlices(s, "<ul>", "</ul>");
  }

  /** Wrapping the span from the start to the end wraps the whole string. */
  lemma WholeSlices(s: string, o: string, c: string)
    ensures s[..0] + o + s[0..|s|] + c + s[|s|..] == o + s + c
  {
    assert s[..0] == [] && s[0..|s|] == s && s[|s|..] == [];
  }

  /** The two bullet lines, each a single line opened by `-`. */
  lemma BulletLines(x: string, y: string)
    requires Inert(x) && Inert(y)
    ensures SingleLine("- " + x) && SingleLine("- " + y)
    ensures ("- " + x)[0] == '-' && ("- " + y)[0] == '-'
    ensures ("- " + x)[2..] == x && ("- " + y)[2..] == y
  {
    SingleLineJoin("- ", x);
    SingleLineJoin("- ", y);
  }

  lemma ListSourceInert(x: string, y: string)
    requires Inert(x) && Inert(y)
    ensures InlineRules(HeadingRules(("- " + x) + "\n" + ("- " + y))) == ("- " + x) + "\n" + ("- " + y)
  {
    var a, b := "- " + x, "- " + y;
    var s := a + "\n" + b;
    BulletLines(x, y);
    TwoLinesIdle(a, b, Prefixed("# ", "<h2>", "</h2>"));
    TwoLinesIdle(a, b, Prefixed("## ", "<h3>", "</h3>"));
    assert HeadingRules(s) == s;
    LacksJoin("- ", x, '*');
    LacksJoin("- ", y, '*');
    TaggedLacks(a, "\n", b, '*');
    LacksJoin("- ", x, '`');
    LacksJoin("- ", y, '`');
    TaggedLacks(a, "\n", b, '`');
    InlineIdle(s);
  }

  lemma ListSourceItems(x: string, y: string)
    requires Inert(x) && Inert(y)
    ensures ListItems(Blockquotes(("- " + x) + "\n" + ("- " + y)))
         == ("<li>" + x + "</li>") + "\n" + ("<li>" + y + "</li>")
  {
    var a, b := "- " + x, "- " + y;
    BulletLines(x, y);
    TwoLinesIdle(a, b, Prefixed("> ", "<blockquote>", "</blockquote>"));
    MapLinesStep(a, '\n', b, Prefixed("- ", "<li>", "</li>"));
    MapLinesOneLine(b, Prefixed("- ", "<li>", "</li>"));
  }

  /** Line 86 does nothing to two single lines when the second starts with `<`. */
  lemma NoBlankLine(u: string, v: string)
    requires SingleLine(u) && SingleLine(v) && |v| > 0 && v[0] == '<'
    ensures ParagraphBreaks(u + "\n" + v) == u + "\n" + v
  {
    var nn := "\n\n";
    LacksFirstIsClear(u, nn, 0);
    LacksFirstIsClear(v, nn, 0);
    var tail := "\n" + v;
    assert tail[1] == '<' && tail[1..] == v;
    DiffersByChar(tail, nn, 0, 1);
    ClearFromSecond(tail, nn);
    ClearConcat(u, tail, nn);
    assert u + "\n" + v == u + tail;
    ClearIsAbsent(u + tail, nn, "</p><p>");
  }

  /** `<li>x</li>`: opens with `<li>`, ends with `</li>`, one line, no empty paragraph. */
  lemma ItemShape(x: string)
    requires Inert(x)
    ensures "<li>" <= "<li>" + x + "</li>"
    ensures ("<li>" + x + "</li>")[|"<li>" + x + "</li>"| - 5..] == "</li>"
    ensures SingleLine("<li>" + x + "</li>")
    ensures ClearFrom("<li>" + x + "</li>", "<p></p>", 0)
  {
    var a := "<li>" + x + "</li>";
    assert a[..4] == "<li>";
    assert a[|a| - 5..] == "</li>";
    TaggedSingleLine("<li>", x, "</li>");
    TaggedClear("<li>", x, "</li>", "<p></p>");
  }

  /** Line 85 on two item lines: one `<ul>` around both. */
  lemma ItemsWrapped(a: string, b: string)
    requires "<li>" <= a && |b| >= 5 && b[|b| - 5..] == "</li>"
    ensures WrapList(a + "\n" + b) == "<ul>" + (a + "\n" + b) + "</ul>"
  {
    var w := a + "\n" + b;
    assert w[..4] == a[..4];
    assert w[|w| - 5..] == b[|b| - 5..];
    WrapListWholeSpan(w);
  }

  /** Lines 86-87 on the wrapped list: no blank line, and only the second line gets a paragraph. */
  lemma ListLinesWrapped(a: string, b: string)
    requires SingleLine(a) && SingleLine(b) && "<li>" <= b
    ensures WrapParagraphs(ParagraphBreaks(("<ul>" + a) + "\n" + (b + "</ul>")))
         == ("<ul>" + a) + "\n" + ("<p>" + (b + "</ul>") + "</p>")
  {
    var u, v := "<ul>" + a, b + "</ul>";
    SingleLineJoin("<ul>", a);
    SingleLineJoin(b, "</ul>");
    assert v[0] == '<' && v[1] == 'l' && u[1] == 'u';
    NoBlankLine(u, v);
    MapLinesStep(u, '\n', v, Paragraph);
    MapLinesOneLine(v, Paragraph);
  }

  /** The list markup after line 87 holds no empty paragraph. */
  lemma ListMarkupClear(a: string, b: string)
    requires "<li>" <= b
    requires ClearFrom(a, "<p></p>", 0) && ClearFrom(b, "<p></p>", 0)
    ensures ClearFrom(("<ul>" + a) + "\n" + ("<p>" + (b + "</ul>") + "</p>"), "<p></p>", 0)
  {
    var e := "<p></p>";
    ClearConcat("<ul>", a, e);
    ClearConcat("<ul>" + a, "\n", e);
    var c := "<p>" + b;
    assert ClearFrom(c, e, 0) by {
      assert c[4] == b[1] == 'l';
      DiffersByChar(c, e, 0, 4);
      LacksFirstIsClear("p>", e, 0);
      ClearConcat("p>", b, e);
      assert c[1..] == "p>" + b;
      ClearFromSecond(c, e);
    }
    ClearConcat(c, "</ul></p>", e);
    assert "<p>" + (b + "</ul>") + "</p>" == c + "</ul></p>";
    ClearConcat(("<ul>" + a) + "\n", c + "</ul></p>", e);
  }

  lemma ListParagraphRules(a: string, b: string)
    requires SingleLine(a) && SingleLine(b) && "<li>" <= b
    requires ClearFrom(a, "<p></p>", 0) && ClearFrom(b, "<p></p>", 0)
    ensures ParagraphRules(("<ul>" + a) + "\n" + (b + "</ul>"))
         == ("<ul>" + a) + "\n" + ("<p>" + (b + "</ul>") + "</p>")
  {
    ListLinesWrapped(a, b);
    ListMarkupClear(a, b);
    ClearIsAbsent(("<ul>" + a) + "\n" + ("<p>" + (b + "</ul>") + "</p>"), "<p></p>", "");
  }

  /**
   Two bullet lines: line 85 wraps both items in one `<ul>`, and line 87
   then wraps the second line, which starts `<li`, in a paragraph.
   */
  lemma TwoItems(x: string, y: string)
    requires Inert(x) && Inert(y)
    ensures ParseMarkdown("- " + x + "\n- " + y)
         == ("<ul>" + ("<li>" + x + "</li>")) + "\n" + ("<p>" + (("<li>" + y + "</li>") + "</ul>") + "</p>")
  {
    var src := ("- " + x) + "\n" + ("- " + y);
    assert "- " + x + "\n- " + y == src;
    var a, b := "<li>" + x + "</li>", "<li>" + y + "</li>";
    ListSourceInert(x, y);
    ListSourceItems(x, y);
    ItemShape(x);
    ItemShape(y);
    ItemsWrapped(a, b);
    Assoc("<ul>", a + "\n", b);
    Assoc("<ul>", a, "\n");
    Assoc("<ul>" + a + "\n", b, "</ul>");
    assert BlockRules(src) == ("<ul>" + a) + "\n" + (b + "</ul>");
    ListParagraphRules(a, b);
  }

  // ---------------------------------------------------------------------------
  // Paragraphs
  // ---------------------------------------------------------------------------

  /** A line rule leaves two unmarked lines around an empty one alone. */
  lemma BlankSeparatedIdle(x: string, y: string, rule: LineRule)
    requires rule.Prefixed? && |rule.marker| > 0 && SingleLine(x) && SingleLine(y)
    requires !(rule.marker <= x) && !(rule.marker <= y)
    ensures MapLines(x + "\n\n" + y, rule) == x + "\n\n" + y
  {
    assert x + "\n\n" + y == x + "\n" + ("" + "\n" + y);
    MapLinesStep(x, '\n', "" + "\n" + y, rule);
    TwoLinesIdle("", y, rule);
  }

  lemma BlankSourceHeadings(x: string, y: string)
    requires SingleLine(x) && SingleLine(y) && Unmarked(x) && Unmarked(y)
    ensures HeadingRules(x + "\n\n" + y) == x + "\n\n" + y
  {
    BlankSeparatedIdle(x, y, Prefixed("# ", "<h2>", "</h2>"));
    BlankSeparatedIdle(x, y, Prefixed("## ", "<h3>", "</h3>"));
  }

  lemma BlankSourceBlocks(x: string, y: string)
    requires Inert(x) && Inert(y) && Unmarked(x) && Unmarked(y)
    ensures BlockRules(x + "\n\n" + y) == x + "\n\n" + y
  {
    var s := x + "\n\n" + y;
    BlankSeparatedIdle(x, y, Prefixed("> ", "<blockquote>", "</blockquote>"));
    BlankSeparatedIdle(x, y, Prefixed("- ", "<li>", "</li>"));
    TaggedLacks(x, "\n\n", y, '<');
    LacksFirstIsClear(s, "<li>", 0);
    WrapListIdle(s);
  }

  lemma ParagraphSourceRules(x: string, y: string)
    requires Inert(x) && Inert(y) && Unmarked(x) && Unmarked(y)
    ensures BlockRules(InlineRules(HeadingRules(x + "\n\n" + y))) == x + "\n\n" + y
  {
    var s := x + "\n\n" + y;
    BlankSourceHeadings(x, y);
    TaggedLacks(x, "\n\n", y, '*');
    TaggedLacks(x, "\n\n", y, '`');
    InlineIdle(s);
    BlankSourceBlocks(x, y);
  }

  /** Line 86 turns the blank line between two lines into `</p><p>`. */
  lemma BlankLineBreaks(x: string, y: string)
    requires SingleLine(x) && SingleLine(y)
    ensures ParagraphBreaks(x + "\n\n" + y) == x + "</p><p>" + y
  {
    var nn := "\n\n";
    LacksFirstIsClear(x, nn, 0);
    LacksFirstIsClear(y, nn, 0);
    ReplaceBetween(x, y, nn, "</p><p>");
  }

  lemma ParagraphsJoin(x: string, y: string)
    ensures "<p>" + (x + "</p><p>" + y) + "</p>" == ("<p>" + x + "</p>") + ("<p>" + y + "</p>")
  {
    var a, b, c := "<p>", "</p>", "<p>";
    assert "</p><p>" == b + c;
    assert a + (x + (b + c) + y) + b == (a + x + b) + (c + y + b);
  }

  /** Line 87 wraps the joined line once, and the join reads as two paragraphs. */
  lemma JoinedLineWrapped(x: string, y: string)
    requires Inert(x) && Inert(y) && |x| > 0
    ensures WrapParagraphs(x + "</p><p>" + y) == ("<p>" + x + "</p>") + ("<p>" + y + "</p>")
  {
    var t := x + "</p><p>" + y;
    TaggedSingleLine(x, "</p><p>", y);
    MapLinesOneLine(t, Paragraph);
    assert t[0] == x[0];
    ParagraphsJoin(x, y);
  }

  /** Two wrapped paragraphs of text without `<` hold no empty paragraph. */
  lemma TwoWrappedSettle(x: string, y: string)
    requires Inert(x) && Inert(y) && |x| > 0 && |y| > 0
    ensures RemoveEmptyParagraphs(("<p>" + x + "</p>") + ("<p>" + y + "</p>")) == ("<p>" + x + "</p>") + ("<p>" + y + "</p>")
  {
    WrappedParagraphClear(x);
    WrappedParagraphClear(y);
    ClearConcat("<p>" + x + "</p>", "<p>" + y + "</p>", "<p></p>");
    ClearIsAbsent(("<p>" + x + "</p>") + ("<p>" + y + "</p>"), "<p></p>", "");
  }

  /** Two unmarked lines separated by a blank line become two paragraphs. */
  lemma TwoParagraphs(x: string, y: string)
    requires Inert(x) && Inert(y) && Unmarked(x) && Unmarked(y) && |x| > 0 && |y| > 0
    ensures ParseMarkdown(x + "\n\n" + y) == ("<p>" + x + "</p>") + ("<p>" + y + "</p>")
  {
    ParagraphSourceRules(x, y);
    BlankLineBreaks(x, y);
    JoinedLineWrapped(x, y);
    TwoWrappedSettle(x, y);
  }

  // ---------------------------------------------------------------------------
  // Emphasis
  // ---------------------------------------------------------------------------

  /** Line 79 then line 80 on `**X**`: one `<strong>`, and no `<em>` from the leftover stars. */
  lemma StrongBeforeEm(x: string)
    requires SingleLine(x) && Lacks(x, '*')
    ensures Bold("**" + x + "**") == "<strong>" + x + "</strong>"
    ensures Italic(Bold("**" + x + "**")) == "<strong>" + x + "</strong>"
  {
    assert "**" + x + "**" + "" == "**" + x + "**";
    LacksNoEarlyClose(x, "**");
    DelimitedFirstClose("**", x, "", "<strong>", "</strong>", false);
    assert "<strong>" + x + "</strong>" + "" == "<strong>" + x + "</strong>";
    TaggedLacks("<strong>", x, "</strong>", '*');
    DelimitedAbsent("<strong>" + x + "</strong>", "*", "<em>", "</em>", false);
  }

  /** Line 79 replaces every bold run of a line, each at its own pair of `**`. */
  lemma TwoStrongRuns(x: string, y: string, z: string)
    requires SingleLine(x) && Lacks(x, '*') && Lacks(y, '*') && SingleLine(z) && Lacks(z, '*')
    ensures Bold("**" + x + "**" + (y + ("**" + z + "**")))
         == "<strong>" + x + "</strong>" + (y + ("<strong>" + z + "</strong>"))
  {
    var d, o, c := "**", "<strong>", "</strong>";
    LacksNoEarlyClose(x, d);
    LacksNoEarlyClose(z, d);
    DelimitedFirstClose(d, x, y + (d + z + d), o, c, false);
    DelimitedSkipsPlain(y, d + z + d, d, o, c, false);
    assert d + z + d + "" == d + z + d;
    DelimitedFirstClose(d, z, "", o, c, false);
    assert o + z + c + "" == o + z + c;
  }

  /** A single star inside a bold run stays in it: `**a*b**` becomes `<strong>a*b</strong>`. */
  lemma StrongAroundStar(a: string, b: string)
    requires SingleLine(a) && Lacks(a, '*') && SingleLine(b) && Lacks(b, '*') && |b| > 0
    ensures Bold("**" + (a + "*" + b) + "**") == "<strong>" + (a + "*" + b) + "</strong>"
  {
    var d, x := "**", a + "*" + b;
    LoneStarNoEarlyClose(a, b);
    TaggedSingleLine(a, "*", b);
    assert d + x + d + "" == d + x + d;
    DelimitedFirstClose(d, x, "", "<strong>", "</strong>", false);
    assert "<strong>" + x + "</strong>" + "" == "<strong>" + x + "</strong>";
  }

  /** In `a*b` followed by `**`, no `**` starts before the closing one. */
  lemma LoneStarNoEarlyClose(a: string, b: string)
    requires Lacks(a, '*') && Lacks(b, '*') && |b| > 0
    ensures NoEarlyClose(a + "*" + b, "**")
  {
    var x := a + "*" + b;
    var t := x + "**";
    forall j | 0 <= j < |x|
      ensures !OccursAt(t, "**", j)
    {
      if j < |a| {
        assert t[j] == a[j];
      } else if j == |a| {
        assert t[j + 1] == b[0];
      } else {
        assert t[j] == b[j - |a| - 1];
      }
    }
  }

  // ---------------------------------------------------------------------------
  // Empty paragraphs
  // ---------------------------------------------------------------------------

  /** A closing tag shaped like `</p>` holds no `o + c`. */
  lemma CloseTagClear(o: string, c: string)
    requires |o| > 1 && |c| >= 2 && o[0] == '<' && c[0] == '<' && o[1] != c[1] && Lacks(c[1..], '<')
    ensures ClearFrom(c, o + c, 0)
  {
    var e := o + c;
    assert c[1] != e[1] && e[0] == '<';
    DiffersByChar(c, e, 0, 1);
    LacksFirstIsClear(c[1..], e, 0);
    ClearFromSecond(c, e);
  }

  /** Removing a leading `o + c` and keeping the `c` after it. */
  lemma PairThenClose(o: string, c: string)
    requires |o| > 1 && |c| >= 2 && o[0] == '<' && c[0] == '<' && o[1] != c[1] && Lacks(c[1..], '<')
    ensures ReplaceAll(o + c + c, o + c, "") == c
  {
    var e := o + c;
    ReplaceMatchStep(e + c, e, "");
    assert (e + c)[|e|..] == c;
    CloseTagClear(o, c);
    ClearIsAbsent(c, e, "");
  }

  /** The scan from the second character of `o + o + c + c`. */
  lemma NestedPairTail(o: string, c: string)
    requires |o| == 3 && |c| >= 2 && o[0] == '<' && c[0] == '<' && o[1] != c[1]
    requires Lacks(o[1..], '<') && Lacks(c[1..], '<')
    ensures ReplaceAll(o[1..] + (o + c + c), o + c, "") == o[1..] + c
  {
    PairThenClose(o, c);
    LacksFirstIsClear(o[1..], o + c, 0);
    ReplaceAllSkipsClear(o[1..], o + c + c, o + c, "");
  }

  /**
   The shape behind the single pass of line 88, for any opening tag `o` and
   closing tag `c` shaped like `<p>` and `</p>`: removing the inner `o + c`
   of `o + o + c + c` leaves the outer `o + c`.
   */
  lemma NestedPairLeavesPair(o: string, c: string)
    requires |o| == 3 && |c| >= 2 && o[0] == '<' && c[0] == '<' && o[1] != c[1]
    requires Lacks(o[1..], '<') && Lacks(c[1..], '<')
    ensures ReplaceAll(o + (o + c) + c, o + c, "") == o + c
  {
    var e := o + c;
    var s := o + (o + c) + c;
    var t := o[1..] + (o + c + c);
    assert !(e <= s) by {
      assert |e| <= |s| ==> s[..|e|][4] == o[1] && e[4] == c[1];
    }
    assert s[1..] == t;
    NestedPairTail(o, c);
    SkipThenRest(s, e, t, o[1..] + c);
    assert s[0] == o[0];
    ConsTail(o, c);
  }

  /** Putting the head back in front of the tail and a suffix gives the whole string and the suffix. */
  lemma ConsTail(o: string, c: string)
    requires |o| > 0
    ensures [o[0]] + (o[1..] + c) == o + c
  {
    assert [o[0]] + o[1..] == o;
  }

  /** Where `pat` does not start, the scan keeps the first character and goes on with the rest. */
  lemma SkipThenRest(s: string, pat: string, t: string, r: string)
    requires |pat| > 0 && |s| > 0 && !(pat <= s)
    requires s[1..] == t && ReplaceAll(t, pat, "") == r
    ensures ReplaceAll(s, pat, "") == [s[0]] + r
  {
    ReplaceSkipStep(s, pat, "");
  }

  /**
   Line 88 makes one pass: removing the inner `<p></p>` of `<p><p></p></p>`
   leaves a new `<p></p>`, which stays until a second application.
   */
  lemma EmptyParagraphSinglePass()
    ensures RemoveEmptyParagraphs("<p><p></p></p>") == "<p></p>"
    ensures RemoveEmptyParagraphs(RemoveEmptyParagraphs("<p><p></p></p>")) == ""
  {
    NestedParagraphOnce();
    EmptyParagraphGone();
  }

  lemma NestedParagraphOnce()
    ensures RemoveEmptyParagraphs("<p><p></p></p>") == "<p></p>"
  {
    var o, c := "<p>", "</p>";
    NestedPairLeavesPair(o, c);
    assert o + c == "<p></p>";
    assert o + (o + c) + c == "<p><p></p></p>";
  }

  lemma EmptyParagraphGone()
    ensures RemoveEmptyParagraphs("<p></p>") == ""
  {
    ReplaceWhole("<p></p>", "");
  }
}

=== FILE: text.dfy ===
/**
 Generic string scanning used by the converter: occurrences of a fixed
 pattern, first and last occurrence, and the left-to-right, non-overlapping
 replacement that a global regular expression with a literal pattern performs.
 */
module Text {

  datatype Option<T> = None | Some(value: T)

  /** `pat` occurs in `s` starting at index `i`. */
  predicate OccursAt(s: string, pat: string, i: int) {
    0 <= i <= |s| && pat <= s[i..]
  }

  /** `pat` occurs somewhere in `s`. */
  predicate Occurs(s: string, pat: string) {
    exists i :: 0 <= i <= |s| && OccursAt(s, pat, i)
  }

  /** The least index at or after `i` where `pat` occurs. */
  function FirstFrom(s: string, pat: string, i: nat): (r: Option<nat>)
    requires i <= |s|
    decreases |s| - i
    ensures r.Some? ==> i <= r.value <= |s| && OccursAt(s, pat, r.value)
    ensures r.Some? ==> forall j :: i <= j < r.value ==> !OccursAt(s, pat, j)
    ensures r.None? ==> forall j :: i <= j ==> !OccursAt(s, pat, j)
  {
    if OccursAt(s, pat, i) then Some(i)
    else if i == |s| then None
    else FirstFrom(s, pat, i + 1)
  }

  /** The first occurrence of `pat` in `s`, if any. */
  function FirstIndex(s: string, pat: string): (r: Option<nat>)
    ensures r.None? <==> !Occurs(s, pat)
    ensures r.Some? ==> OccursAt(s, pat, r.value)
    ensures r.Some? ==> forall j :: 0 <= j < r.value ==> !OccursAt(s, pat, j)
  {
    FirstFrom(s, pat, 0)
  }

  /** The greatest index at or before `i` where `pat` occurs. */
  function LastUpTo(s: string, pat: string, i: nat): (r: Option<nat>)
    requires i <= |s|
    ensures r.Some? ==> r.value <= i && OccursAt(s, pat, r.value)
    ensures r.Some? ==> forall j :: r.value < j <= i ==> !OccursAt(s, pat, j)
    ensures r.None? ==> forall j :: j <= i ==> !OccursAt(s, pat, j)
  {
    if OccursAt(s, pat, i) then Some(i)
    else if i == 0 then None
    else LastUpTo(s, pat, i - 1)
  }

  /** The last occurrence of `pat` in `s`, if any. */
  function LastIndex(s: string, pat: string): (r: Option<nat>)
    ensures r.None? <==> !Occurs(s, pat)
    ensures r.Some? ==> OccursAt(s, pat, r.value)
    ensures r.Some? ==> forall j :: r.value < j ==> !OccursAt(s, pat, j)
  {
    LastUpTo(s, pat, |s|)
  }

  /**
   Replaces every occurrence of `pat`, scanning left to right and resuming
   after each replaced occurrence, as `String.prototype.replace` does with a
   global regular expression whose pattern is the literal `pat`.
   */
  function ReplaceAll(s: string, pat: string, rep: string): string
    requires |pat| > 0
    decreases |s|
  {
    if pat <= s then rep + ReplaceAll(s[|pat|..], pat, rep)
    else if |s| == 0 then []
    else [s[0]] + ReplaceAll(s[1..], pat, rep)
  }

  /** How many occurrences `ReplaceAll` replaces. */
  function MatchCount(s: string, pat: string): nat
    requires |pat| > 0
    decreases |s|
  {
    if pat <= s then 1 + MatchCount(s[|pat|..], pat)
    else if |s| == 0 then 0
    else MatchCount(s[1..], pat)
  }

  /** One step of the scan where `pat` starts: the replacement, then the scan after the match. */
  lemma ReplaceMatchStep(s: string, pat: string, rep: string)
    requires |pat| > 0 && pat <= s
    ensures ReplaceAll(s, pat, rep) == rep + ReplaceAll(s[|pat|..], pat, rep)
  {
  }

  /** One step of the scan where `pat` does not start: the first character is kept. */
  lemma ReplaceSkipStep(s: string, pat: string, rep: string)
    requires |pat| > 0 && |s| > 0 && !(pat <= s)
    ensures ReplaceAll(s, pat, rep) == [s[0]] + ReplaceAll(s[1..], pat, rep)
  {
  }

  /** The pattern alone is replaced as a whole. */
  lemma ReplaceWhole(e: string, rep: string)
    requires |e| > 0
    ensures ReplaceAll(e, e, rep) == rep
  {
    ReplaceMatchStep(e, e, rep);
    assert e[|e|..] == [];
  }

  lemma SuccTimes(n: int, d: int)
    ensures (n + 1) * d == n * d + d
  {
  }

  /** Each replaced occurrence changes the length by `|rep| - |pat|`. */
  lemma {:induction false} ReplaceAllLength(s: string, pat: string, rep: string)
    requires |pat| > 0
    decreases |s|
    ensures |ReplaceAll(s, pat, rep)| == |s| + MatchCount(s, pat) * (|rep| - |pat|)
  {
    if pat <= s {
      var t := s[|pat|..];
      ReplaceAllLength(t, pat, rep);
      ReplaceMatchStep(s, pat, rep);
      assert MatchCount(s, pat) == 1 + MatchCount(t, pat);
      SuccTimes(MatchCount(t, pat), |rep| - |pat|);
    } else if |s| > 0 {
      ReplaceAllLength(s[1..], pat, rep);
      ReplaceSkipStep(s, pat, rep);
      assert MatchCount(s, pat) == MatchCount(s[1..], pat);
    }
  }

  /** The scan replaces something exactly when the pattern occurs at all. */
  lemma {:induction false} MatchCountZeroIff(s: string, pat: string)
    requires |pat| > 0
    decreases |s|
    ensures MatchCount(s, pat) == 0 <==> !Occurs(s, pat)
  {
    if pat <= s {
      assert OccursAt(s, pat, 0);
    } else if |s| == 0 {
      assert forall i :: !OccursAt(s, pat, i);
    } else {
      MatchCountZeroIff(s[1..], pat);
      forall i | OccursAt(s, pat, i)
        ensures OccursAt(s[1..], pat, i - 1)
      {
        assert i != 0;
        assert s[i..] == s[1..][i - 1..];
      }
      forall i | OccursAt(s[1..], pat, i)
        ensures OccursAt(s, pat, i + 1)
      {
        assert s[i + 1..] == s[1..][i..];
      }
    }
  }

  /** Without an occurrence the text passes through unchanged. */
  lemma {:induction false} ReplaceAllAbsent(s: string, pat: string, rep: string)
    requires |pat| > 0
    requires !Occurs(s, pat)
    decreases |s|
    ensures ReplaceAll(s, pat, rep) == s
  {
    assert !OccursAt(s, pat, 0);
    if |s| > 0 {
      forall i | OccursAt(s[1..], pat, i)
        ensures OccursAt(s, pat, i + 1)
      {
        assert s[i + 1..] == s[1..][i..];
      }
      ReplaceAllAbsent(s[1..], pat, rep);
    }
  }

  /**
   When the replacement has a different length from the pattern, the result
   equals the input exactly when the pattern does not occur.
   */
  lemma ReplaceAllUnchangedIff(s: string, pat: string, rep: string)
    requires |pat| > 0 && |rep| != |pat|
    ensures ReplaceAll(s, pat, rep) == s <==> !Occurs(s, pat)
  {
    if Occurs(s, pat) {
      MatchCountZeroIff(s, pat);
      ReplaceAllLength(s, pat, rep);
      NonZeroProduct(MatchCount(s, pat), |rep| - |pat|);
      assert |ReplaceAll(s, pat, rep)| != |s|;
    } else {
      ReplaceAllAbsent(s, pat, rep);
    }
  }

  lemma NonZeroProduct(n: nat, d: int)
    requires n > 0 && d != 0
    ensures n * d != 0
  {
    if d > 0 {
      assert n * d >= d;
    } else {
      assert n * d <= d;
    }
  }

  lemma OccursAtStart(t: string, b: string)
    ensures Occurs(t + b, t)
  {
    assert (t + b)[0..] == t + b;
    assert OccursAt(t + b, t, 0);
  }

  lemma OccursAtEnd(a: string, t: string)
    ensures Occurs(a + t, t)
  {
    assert (a + t)[|a|..] == t;
    assert OccursAt(a + t, t, |a|);
  }

  lemma OccursAppend(s: string, t: string, post: string)
    requires Occurs(s, t)
    ensures Occurs(s + post, t)
  {
    var i :| 0 <= i <= |s| && OccursAt(s, t, i);
    assert (s + post)[i..] == s[i..] + post;
    assert OccursAt(s + post, t, i);
  }

  lemma OccursPrepend(pre: string, s: string, t: string)
    requires Occurs(s, t)
    ensures Occurs(pre + s, t)
  {
    var i :| 0 <= i <= |s| && OccursAt(s, t, i);
    assert (pre + s)[|pre| + i..] == s[i..];
    assert OccursAt(pre + s, t, |pre| + i);
  }

  /** `s` ends with `suffix`. */
  predicate EndsWith(s: string, suffix: string) {
    |suffix| <= |s| && s[|s| - |suffix|..] == suffix
  }

  /** Whatever comes before it, a string ends with itself. */
  lemma EndsWithAppended(pre: string, suffix: string)
    ensures EndsWith(pre + suffix, suffix)
  {
    assert (pre + suffix)[|pre|..] == suffix;
  }

  /** `c` is nowhere in `s`. */
  predicate Lacks(s: string, c: char) {
    forall i :: 0 <= i < |s| ==> s[i] != c
  }

  /** `c` and `pat`, aligned at `c[i]`, disagree at some position at or after `k` inside both. */
  predicate DiffersAt(c: string, pat: string, i: nat, k: nat)
    decreases |pat| - k
  {
    k < |pat| && i + k < |c| && (c[i + k] != pat[k] || DiffersAt(c, pat, i, k + 1))
  }

  /**
   No occurrence of `pat` can start in `c` at or after `i`, whatever follows
   `c`: at each such start the two disagree before `c` ends.
   */
  predicate ClearFrom(c: string, pat: string, i: nat)
    decreases |c| - i
  {
    i >= |c| || (DiffersAt(c, pat, i, 0) && ClearFrom(c, pat, i + 1))
  }

  lemma {:induction false} DiffersAtBlocks(c: string, rest: string, pat: string, i: nat, k: nat)
    requires DiffersAt(c, pat, i, k)
    requires i + k <= |c| + |rest| && pat[..k] <= (c + rest)[i..]
    decreases |pat| - k
    ensures !OccursAt(c + rest, pat, i)
  {
    var s := c + rest;
    if c[i + k] == pat[k] {
      assert pat[..k + 1] == pat[..k] + [pat[k]];
      if OccursAt(s, pat, i) {
        assert s[i + k] == pat[k];
        assert s[i..][..k + 1] == s[i..][..k] + [s[i + k]];
      }
      if pat[..k + 1] <= s[i..] {
        DiffersAtBlocks(c, rest, pat, i, k + 1);
      }
    } else {
      assert s[i + k] == c[i + k];
    }
  }

  /** A clear chunk starts no occurrence, whatever follows it. */
  lemma {:induction false} ClearBlocks(c: string, rest: string, pat: string, i: nat)
    requires ClearFrom(c, pat, i)
    decreases |c| - i
    ensures forall j :: i <= j < |c| ==> !OccursAt(c + rest, pat, j)
  {
    if i < |c| {
      DiffersAtBlocks(c, rest, pat, i, 0);
      ClearBlocks(c, rest, pat, i + 1);
    }
  }

  /** A chunk without the pattern's first character is clear. */
  lemma {:induction false} LacksFirstIsClear(c: string, pat: string, i: nat)
    requires |pat| > 0 && Lacks(c, pat[0])
    decreases |c| - i
    ensures ClearFrom(c, pat, i)
  {
    if i < |c| {
      LacksFirstIsClear(c, pat, i + 1);
    }
  }

  /** Nothing occurs in `c + rest` if `c` is clear and nothing occurs in `rest`. */
  lemma NoOccurrenceAfterClear(c: string, rest: string, pat: string)
    requires ClearFrom(c, pat, 0) && !Occurs(rest, pat)
    ensures !Occurs(c + rest, pat)
  {
    ClearBlocks(c, rest, pat, 0);
    var s := c + rest;
    forall j | |c| <= j <= |s|
      ensures !OccursAt(s, pat, j)
    {
      assert s[j..] == rest[j - |c|..];
      assert !OccursAt(rest, pat, j - |c|);
    }
  }

  /** The replacing scan passes over a clear chunk unchanged. */
  lemma {:induction false} ReplaceAllSkipsClear(c: string, rest: string, pat: string, rep: string)
    requires |pat| > 0 && ClearFrom(c, pat, 0)
    decreases |c|
    ensures ReplaceAll(c + rest, pat, rep) == c + ReplaceAll(rest, pat, rep)
  {
    if |c| > 0 {
      ClearBlocks(c, rest, pat, 0);
      assert !OccursAt(c + rest, pat, 0);
      ReplaceSkipStep(c + rest, pat, rep);
      ClearShift(c, pat, 0);
      assert (c + rest)[1..] == c[1..] + rest;
      ReplaceAllSkipsClear(c[1..], rest, pat, rep);
      assert [c[0]] + (c[1..] + ReplaceAll(rest, pat, rep)) == c + ReplaceAll(rest, pat, rep);
    } else {
      assert c + rest == rest;
    }
  }

  /** Clearness survives dropping the first character. */
  lemma {:induction false} ClearShift(c: string, pat: string, i: nat)
    requires |c| > 0 && ClearFrom(c, pat, i + 1)
    decreases |c| - i
    ensures ClearFrom(c[1..], pat, i)
  {
    if i < |c[1..]| {
      DiffersShift(c, pat, i + 1, 0);
      ClearShift(c, pat, i + 1);
    }
  }

  lemma {:induction false} DiffersShift(c: string, pat: string, i: nat, k: nat)
    requires i >= 1 && DiffersAt(c, pat, i, k)
    decreases |pat| - k
    ensures DiffersAt(c[1..], pat, i - 1, k)
  {
    if c[i + k] == pat[k] {
      DiffersShift(c, pat, i, k + 1);
    }
  }

  lemma {:induction false} DiffersExtend(a: string, b: string, pat: string, i: nat, k: nat)
    requires DiffersAt(a, pat, i, k)
    decreases |pat| - k
    ensures DiffersAt(a + b, pat, i, k)
  {
    if a[i + k] == pat[k] {
      DiffersExtend(a, b, pat, i, k + 1);
    }
  }

  lemma {:induction false} DiffersPrepend(a: string, b: string, pat: string, i: nat, k: nat)
    requires DiffersAt(b, pat, i, k)
    decreases |pat| - k
    ensures DiffersAt(a + b, pat, |a| + i, k)
  {
    assert (a + b)[|a| + i + k] == b[i + k];
    if b[i + k] == pat[k] {
      DiffersPrepend(a, b, pat, i, k + 1);
    }
  }

  /** One disagreeing character inside `c` is enough. */
  lemma {:induction false} DiffersByChar(c: string, pat: string, i: nat, k: nat)
    requires k < |pat| && i + k < |c| && c[i + k] != pat[k]
    ensures DiffersAt(c, pat, i, 0)
  {
    var m := k;
    while m > 0
      invariant 0 <= m <= k
      invariant DiffersAt(c, pat, i, m)
    {
      m := m - 1;
    }
  }

  /** Two clear chunks make a clear text. */
  lemma {:induction false} ClearConcatFrom(a: string, b: string, pat: string, i: nat)
    requires i < |a| ==> ClearFrom(a, pat, i)
    requires ClearFrom(b, pat, if i < |a| then 0 else i - |a|)
    decreases |a| + |b| - i
    ensures ClearFrom(a + b, pat, i)
  {
    if i < |a| + |b| {
      if i < |a| {
        DiffersExtend(a, b, pat, i, 0);
      } else {
        DiffersPrepend(a, b, pat, i - |a|, 0);
      }
      ClearConcatFrom(a, b, pat, i + 1);
    }
  }

  lemma ClearConcat(a: string, b: string, pat: string)
    requires ClearFrom(a, pat, 0) && ClearFrom(b, pat, 0)
    ensures ClearFrom(a + b, pat, 0)
  {
    ClearConcatFrom(a, b, pat, 0);
  }

  /** A text clear after its first character, whose first position disagrees, is clear. */
  lemma ClearFromSecond(c: string, pat: string)
    requires |c| > 0 && DiffersAt(c, pat, 0, 0) && ClearFrom(c[1..], pat, 0)
    ensures ClearFrom(c, pat, 0)
  {
    assert c == [c[0]] + c[1..];
    ClearConcatFrom([c[0]], c[1..], pat, 1);
  }

  /** A clear text has no occurrence and is left alone by the replacing scan. */
  lemma ClearIsAbsent(s: string, pat: string, rep: string)
    requires |pat| > 0 && ClearFrom(s, pat, 0)
    ensures !Occurs(s, pat)
    ensures ReplaceAll(s, pat, rep) == s
  {
    assert !Occurs([], pat);
    NoOccurrenceAfterClear(s, [], pat);
    ReplaceAllSkipsClear(s, [], pat, rep);
    assert s + [] == s;
  }

  /** One occurrence of `pat` between two stretches clear of it is the only one replaced. */
  lemma ReplaceBetween(x: string, y: string, pat: string, rep: string)
    requires |pat| > 0 && ClearFrom(x, pat, 0) && ClearFrom(y, pat, 0)
    ensures ReplaceAll(x + pat + y, pat, rep) == x + rep + y
  {
    var t := pat + y;
    ReplaceMatchStep(t, pat, rep);
    assert t[|pat|..] == y;
    ClearIsAbsent(y, pat, rep);
    assert ReplaceAll(t, pat, rep) == rep + y;
    ReplaceAllSkipsClear(x, t, pat, rep);
    Assoc(x, pat, y);
    Assoc(x, rep, y);
  }

  /** Concatenation is associative; longer regroupings are chains of this step. */
  lemma Assoc(a: string, b: string, c: string)
    ensures a + (b + c) == a + b + c
  {
  }

  /** After a clear chunk, the first occurrence is where the rest starts with the pattern. */
  lemma FirstIndexAfterClear(c: string, rest: string, pat: string)
    requires |pat| > 0 && ClearFrom(c, pat, 0) && pat <= rest
    ensures FirstIndex(c + rest, pat) == Some(|c|)
  {
    var s := c + rest;
    ClearBlocks(c, rest, pat, 0);
    assert s[|c|..] == rest;
    assert OccursAt(s, pat, |c|);
  }

  /** A string without `c` is one without `c`'s occurrences, as `Lacks` states it. */
  lemma NotInLacks(s: string, c: char)
    requires c !in s
    ensures Lacks(s, c)
  {
    forall i | 0 <= i < |s|
      ensures s[i] != c
    {
      assert s[i] in s;
    }
  }
}
